=== FILE: README.md ===
# HeatGPX track pipeline, modelled in Dafny

HeatGPX turns a folder of GPX recordings into a heat map. The folder is laid out as
`YYYY/MM/sport|divers/YYYY-MM-DD_subType_name.gpx`. This project models the four pure
pieces of that pipeline as immutable datatypes and functions, and proves what they
promise:

- **Track metrics and metadata** (`GpxService`). This covers:
  - path length over consecutive point pairs;
  - elevation gain;
  - duration from the end timestamps;
  - the guarded average speed;
  - year and month taken from the file path;
  - the sanitised id;
  - the track record that `parseGpxFile` assembles from these.
- **Per-file classification in the server's directory scan** (`TrackScan`). A relative
  path becomes one of three outcomes:
  - a descriptor `{path, year, month, type, subType, filename}`;
  - nothing, for a non-`.gpx` entry;
  - the exception that ends the scan of that directory.

  The loop over one directory's entries is modelled too.
- **Geographic helpers** (`GeoUtils`): the bounding box of a track, the duration text
  and the distance text.
- **The track store** (`TracksStore`). It holds the tracks and the filters, and
  derives the filtered view and the statistics from them. Its actions (add, add many,
  clear, merge a partial filter update, toggle a category) are functions from state
  to state.

Supporting modules:

- `Optional` holds the `Option` type.
- `Text` holds ASCII case mapping, `split` on one character, and `join`.
- `JsNumber` gives JavaScript's number conversions exact definitions:
  - `parseInt`, as in section 19.2.5 of ECMA-262;
  - `${n}` for integers;
  - `Math.round` and the truncating `%` (`Math.floor` is Dafny's `.Floor`);
  - `x || fallback` on a parsed number.
- `GpxTypes` mirrors the declared types.
- `ExamplePath` is the sample path `2023/07/sport/2023-07-04_rando_summit.gpx` used by
  the worked examples.

Modelling choices:

- **Distance between two points.** It is a parameter `dist: (Point, Point) -> real`.
  Lemmas that need it symmetric or non-negative say so in their preconditions. The
  source's haversine formula is symmetric.
- **Times** are whole milliseconds (`Date.getTime()`). A point without a time has `None`.
- **Numbers** are exact reals and unbounded integers. The model has no NaN other than
  `parseInt`'s, which is `None`. The NaN the code gets from `parseFloat` of a bad
  coordinate or from an unparseable time is listed under "Left out".
- **The current year** (`new Date().getFullYear()`) is a parameter.
- **The kilometre rendering** `toFixed(2)` is a parameter `fixed2`.

Three behaviours of the code that are easy to misread:

- **Id sanitisation.** The id replaces every character other than an ASCII letter or
  digit with `_`; it does not strip them. As a result, distinct paths can share an id
  (`GenerateIdNotInjective`).
- **Server month.** The server's month is `parseInt(parts[1]) || 1` and is not
  restricted to 1..12: a segment `13` gives 13 (`MonthNotClamped`). Only the client-side
  month from `parseGpxFile` is always within 1..12 (`PathMonthSpec`).
- **Failing entries.** A `.gpx` entry fewer than four segments deep throws inside the
  loop. The directory's `catch` then returns the descriptors collected before that entry
  and skips the entries after it (`ScanFilesStopsAtThrow`).

## Model

| member | source | states |
|---|---|---|
| GpxService.CalculateDistance | src/services/gpx.service.ts:142-148 | the loop's result is the in-order sum of `dist` over consecutive pairs, and 0 for fewer than two points |
| GpxService.PathLengthReversed | src/services/gpx.service.ts:142-163 | with a symmetric distance, the reversed point sequence has the same length |
| GpxService.PathLengthPrepend | src/services/gpx.service.ts:142-148 | a point put in front adds exactly its distance to the old first point |
| GpxService.CalculateElevationGain | src/services/gpx.service.ts:170-177 | the loop's result is the sum of positive elevation deltas, a missing elevation counting as 0 |
| GpxService.ElevationGain | src/services/gpx.service.ts:170-177 | the gain is never negative, and is 0 for fewer than two points |
| GpxService.GainMinusLoss | src/services/gpx.service.ts:170-177 | gain minus descent telescopes to last elevation minus first, each missing elevation counting as 0 |
| GpxService.GainAtLeastNetClimb | src/services/gpx.service.ts:170-177 | the gain is at least the last elevation minus the first |
| GpxService.LossZeroIff | src/services/gpx.service.ts:170-177 | the descent is 0 exactly when the elevations never decrease along the path |
| GpxService.GainEqualsNetClimbIff | src/services/gpx.service.ts:170-177 | the gain equals last minus first elevation exactly when the elevations never decrease |
| GpxService.Duration | src/services/gpx.service.ts:179-185 | 0 for fewer than two points or a missing end time; otherwise 1000 times the result is the last time minus the first |
| GpxService.DurationIgnoresInterior | src/services/gpx.service.ts:179-185 | paths with the same end times have the same duration, whatever lies between |
| GpxService.DurationReversed | src/services/gpx.service.ts:179-185 | walking the points backwards negates the duration |
| GpxService.AvgSpeed | src/services/gpx.service.ts:32 | 0 unless the duration is positive; otherwise speed times duration is 3.6 times the distance; never negative for a non-negative distance |
| GpxService.UnorderedTimesGiveZeroSpeed | src/services/gpx.service.ts:32 | end timestamps out of order or equal give an average speed of 0 |
| GpxService.FirstMatch | src/services/gpx.service.ts:36-37 | the index returned is the first segment that matches, or the number of segments when none does |
| GpxService.YearSegmentValue | src/services/gpx.service.ts:36 | a four-digit segment parses to its decimal value |
| GpxService.MonthSegmentValue | src/services/gpx.service.ts:37 | a segment matching `0?[1-9]` or `1[0-2]` parses to a value in 1..12 |
| GpxService.PathYearSpec | src/services/gpx.service.ts:35-36 | the year is the value of the first four-digit segment, and the current year when no segment has four digits |
| GpxService.PathYearFound | src/services/gpx.service.ts:35-36 | when the first four-digit segment is at index k, the year is that segment's value |
| GpxService.PathYearFallback | src/services/gpx.service.ts:36 | with no four-digit segment, the stringified current year parses back to the current year |
| GpxService.PathMonthSpec | src/services/gpx.service.ts:35-37 | the month is always in 1..12: the value of the first month-number segment, else 1 |
| GpxService.PathMonthFound | src/services/gpx.service.ts:37 | when the first month-number segment is at index k, the month is its value, within 1..12 |
| GpxService.PathMonthFallback | src/services/gpx.service.ts:37 | with no month-number segment, the month is 1 |
| GpxService.ExamplePathYear | src/services/gpx.service.ts:35-36 | `2023/07/sport/2023-07-04_rando_summit.gpx` is dated 2023 for any current year |
| GpxService.ExamplePathMonth | src/services/gpx.service.ts:35-37 | the same path is dated month 7 |
| GpxService.ExampleYearValue | src/services/gpx.service.ts:36 | `2023` is a four-digit segment worth 2023 |
| GpxService.ExampleMonthValue | src/services/gpx.service.ts:37 | `07` is a month segment worth 7, and `2023` is not one |
| GpxService.GenerateId | src/services/gpx.service.ts:187-189 | the id has the path's length, keeps ASCII letters and digits in place, and has `_` everywhere else |
| GpxService.GenerateIdIdempotent | src/services/gpx.service.ts:187-189 | sanitising an id again leaves it unchanged |
| GpxService.GenerateIdNotInjective | src/services/gpx.service.ts:187-189 | `a/b` and `a.b` get the same id |
| GpxService.TrackName | src/services/gpx.service.ts:21 | a non-empty name is kept; a missing or empty name becomes "Sans nom" |
| GpxService.ParseGpxFile | src/services/gpx.service.ts:11-54 | the record keeps the points, path, type, subtype and date; its id, name, year, month, distance, duration and gain are the sanitised path, the name or "Sans nom", the path year and month (month in 1..12), the path length, the duration and the elevation gain; its speed is the guarded quotient of its own distance and duration; the metrics are 0 below two points |
| GpxService.RecordSpeed | src/services/gpx.service.ts:32 | on such a record the speed is 0 unless the duration is positive, and otherwise speed times duration is 3.6 times the distance |
| GpxService.ParsedExampleDate | src/services/gpx.service.ts:35-37 | a track read from `2023/07/sport/2023-07-04_rando_summit.gpx` has year 2023 and month 7 whatever the current year |
| GpxService.PathYear | src/services/gpx.service.ts:35-36 | the year: by PathYearSpec, the first four-digit segment's value, else the current year |
| GpxService.PathMonth | src/services/gpx.service.ts:35-37 | the month: by PathMonthSpec, the first month-number segment's value, else 1, always in 1..12 |
| TrackScan.IsGpxNameIff | server/index.js:34 | an entry is a GPX file exactly when it ends in '.' then g, p, x in either case |
| TrackScan.IsGpxNameExamples | server/index.js:34 | `X.GPX` is a GPX file and `x.gpx.bak` is not |
| TrackScan.ClassifyNotListed | server/index.js:34 | an entry is skipped exactly when its name does not end in `.gpx` |
| TrackScan.ClassifyThrows | server/index.js:37-47 | an entry throws exactly when it is a GPX file fewer than four segments deep |
| TrackScan.ListedFields | server/index.js:36-57 | a listed descriptor keeps the relative path; its filename is the fourth segment; it is 'sport' exactly when the third segment is `sport`; its subtype comes from the filename |
| TrackScan.ListedPathRejoins | server/index.js:36-43 | the segments the descriptor draws on, joined with '/', give back the whole path |
| TrackScan.Classify | server/index.js:34-58 | one entry's outcome; by ClassifyNotListed, ClassifyThrows, ListedFields and ListedYearMonth: skipped exactly for a non-`.gpx` name, throwing exactly for a `.gpx` file under four segments deep, otherwise the descriptor built from the segments |
| TrackScan.ListedYearMonth | server/index.js:40-54 | year and month are the numbers the first two segments start with, whatever text follows the digits, when those are non-zero and the segment does not start with the hexadecimal prefix `0x`; the current year and 1 when the number is 0, or when the segment is empty or starts with neither white space, a sign nor a digit |
| TrackScan.LeadingDigitsSegment | server/index.js:53-54 | a segment starting with decimal digits but not with `0x` or `0X` gives the value of those digits, whatever follows them, or the fallback when the value is 0 |
| TrackScan.YearWithTrailingX | server/index.js:53 | a year segment `2023x` gives 2023: only a leading `0x` is read as hexadecimal |
| TrackScan.MonthWithText | server/index.js:54 | a month segment `07-juillet` gives 7 |
| TrackScan.DigitSegment | server/index.js:53-54 | parsing plain digits with a fallback gives their value, or the fallback when the value is 0 |
| TrackScan.NonNumericSegment | server/index.js:53-54 | a segment that is empty, or starts with neither white space, a sign nor a digit, gives the fallback |
| TrackScan.MonthNotClamped | server/index.js:41-54 | a month segment `13` gives 13 |
| TrackScan.MonthZeroFallsBack | server/index.js:41-54 | a month segment `00` gives 1 |
| TrackScan.SubTypeOfTokens | server/index.js:47-48 | the subtype is the second '_'-token when it exists and is not empty, and "autre" otherwise |
| TrackScan.SubTypeMiddleToken | server/index.js:47-48 | `2023-07-04_rando_summit.gpx` has subtype `rando` |
| TrackScan.SubTypeLastToken | server/index.js:47-48 | `2023-07-04_rando.gpx` has subtype `rando.gpx` |
| TrackScan.SubTypeNoUnderscore | server/index.js:47-48 | a name without '_' has subtype "autre" |
| TrackScan.SubTypeEmptyToken | server/index.js:47-48 | an empty second token gives "autre" |
| TrackScan.ExampleYear | server/index.js:53 | the year segment `2023` gives 2023 |
| TrackScan.ExampleMonth | server/index.js:54 | the month segment `07` gives 7 |
| TrackScan.ExampleFileName | server/index.js:34-48 | the example file name is a GPX name with subtype `rando` |
| TrackScan.ClassifyExample | server/index.js:34-58 | the example path is listed as a July 2023 sport track of subtype `rando` |
| TrackScan.ScanWithContents | server/index.js:27-60 | every descriptor returned comes from some entry; with no throwing entry, every listed entry's descriptor is returned |
| TrackScan.ScanWithStopsAtThrow | server/index.js:27-63 | a throwing entry ends the loop: the result is what the entries before it gave |
| TrackScan.ScanFilesContents | server/index.js:27-60 | the same, for the server's classification |
| TrackScan.ScanFilesStopsAtThrow | server/index.js:27-63 | the same, for the server's classification |
| TrackScan.ScanWithSingle | server/index.js:27-58 | one entry alone gives its descriptor when listed and nothing otherwise |
| TrackScan.ScanWithAppend | server/index.js:27-58 | when no entry of the first part throws, the result for two parts is the first part's result followed by the second's: one descriptor per listed entry, in entry order |
| TrackScan.ScanFilesSingle | server/index.js:27-58 | the same single-entry law, for the server's classification |
| TrackScan.ScanFilesAppend | server/index.js:27-58 | the same append law, for the server's classification |
| TrackScan.ScanWith | server/index.js:27-63 | the loop over the entries; by ScanWithSingle, ScanWithAppend and ScanWithStopsAtThrow: one descriptor per listed entry in order, up to the first throwing entry |
| TrackScan.ScanFiles | server/index.js:27-63 | the loop with the server's classification; the same laws through ScanFilesSingle, ScanFilesAppend and ScanFilesStopsAtThrow |
| GeoUtils.CalculateBounds | src/utils/geo.utils.ts:67-90 | all zero for no points; otherwise every point lies inside the box, and each edge is some point's coordinate |
| GeoUtils.ScanBounds | src/utils/geo.utils.ts:82-87 | the scan from a start box ends with a box covering the start and every point, each edge coming from the start or from a point |
| GeoUtils.BoundsUnique | src/utils/geo.utils.ts:67-90 | at most one box both encloses the points and has every edge attained |
| GeoUtils.BoundsOrderIndependent | src/utils/geo.utils.ts:67-90 | two orderings of the same points give the same box |
| GeoUtils.DurationParts | src/utils/geo.utils.ts:106-107 | for non-negative seconds, minutes are in 0..59 and 3600h + 60m ≤ s < 3600h + 60m + 60 |
| GeoUtils.DurationPartsOfWholeSeconds | src/utils/geo.utils.ts:106-107 | for whole seconds s, the hours are s div 3600 and the minutes (s mod 3600) div 60 |
| GeoUtils.FormatDurationHours | src/utils/geo.utils.ts:106-110 | from one hour on, the hour count is at least 1 and the text is exactly the hour count, "h ", the minute count and "min"; the hour prefix and the minute text each parse back to their counts |
| GeoUtils.FormatDurationMinutes | src/utils/geo.utils.ts:106-112 | below one hour, negative durations included, the text is the minute count followed by "min" and parses back to the minute count; the hour count is never positive, and is 0 for a non-negative duration |
| GeoUtils.FormatDurationExamples | src/utils/geo.utils.ts:105-113 | 90 s is "1min" and 3660 s is "1h 1min" |
| GeoUtils.FormatDurationNegativeExample | src/utils/geo.utils.ts:105-113 | -90 s, as reversed timestamps give, is "-2min" |
| GeoUtils.FormatDistanceUnit | src/utils/geo.utils.ts:95-100 | the text ends in " m" exactly below 1000 metres and in " km" exactly from 1000 on |
| GeoUtils.FormatDistanceReadsBack | src/utils/geo.utils.ts:96-97 | below 1000, the text parses back to the rounded metres, which lie within half a metre of the input |
| GeoUtils.FormatWholeMeters | src/utils/geo.utils.ts:96-97 | a whole number of metres below 1000 renders as its own decimal digits followed by " m" |
| GeoUtils.FormatDistanceExample | src/utils/geo.utils.ts:96-97 | 999 metres is "999 m" |
| GeoUtils.FormatDuration | src/utils/geo.utils.ts:105-113 | the duration text; by FormatDurationHours, FormatDurationMinutes and FormatDurationExamples: exactly hours, "h ", minutes and "min" from one hour on, the minutes alone below one hour (negative durations included), always ending in "min" |
| GeoUtils.FormatDistance | src/utils/geo.utils.ts:95-100 | the distance text; by FormatDistanceUnit and FormatDistanceReadsBack: " m" exactly below 1000, reading back as the rounded metres, and " km" from 1000 on |
| TracksStore.Keep | src/stores/tracks.store.ts:20-37 | the filter callback; by KeepIff: category shown and year and month within the ranges that are set |
| TracksStore.KeepIff | src/stores/tracks.store.ts:22-36 | a track passes exactly when its category is shown and its year and month lie in the ranges that are set, bounds inclusive |
| TracksStore.Filter | src/stores/tracks.store.ts:19-38 | the filtered list is never longer than the store; by FilterMembers, FilterIsSubsequence and FilterMultiplicity: the passing tracks, in order, with their multiplicity |
| TracksStore.FilteredTracks | src/stores/tracks.store.ts:19-38 | the view of a state: its tracks under its filters, with the laws of Filter |
| TracksStore.FilterMembers | src/stores/tracks.store.ts:19-38 | a track is in the view exactly when it is stored and passes |
| TracksStore.KeptIndices | src/stores/tracks.store.ts:19-20 | the kept indices are increasing, in range, point at passing tracks, and include every passing track |
| TracksStore.FilterIsSubsequence | src/stores/tracks.store.ts:19-20 | the view is the tracks at the kept indices, in order: an order-preserving subsequence |
| TracksStore.FilterAppend | src/stores/tracks.store.ts:19-38 | filtering distributes over concatenation |
| TracksStore.FilterMultiplicity | src/stores/tracks.store.ts:19-38 | a passing track occurs in the view as often as in the store, and any other track not at all |
| TracksStore.InitialFiltersKeepAll | src/stores/tracks.store.ts:8-38 | under the initial filters every track passes |
| TracksStore.TypeListsIgnored | src/stores/tracks.store.ts:19-38 | the subtype lists never change the view |
| TracksStore.InvertedRangeKeepsNothing | src/stores/tracks.store.ts:26-34 | a year or month range with minimum above maximum empties the view |
| TracksStore.HidingSport | src/stores/tracks.store.ts:22-23 | with sport hidden, divers shown and no ranges, the view holds exactly the divers tracks |
| TracksStore.ComputeStats | src/stores/tracks.store.ts:40-48 | the track count is the view's length, and the sport and divers counts add up to it |
| TracksStore.CountsPartition | src/stores/tracks.store.ts:45-46 | every track is counted as exactly one of sport or divers |
| TracksStore.SumOfFilterIsMasked | src/stores/tracks.store.ts:43 | summing the view's distances equals summing every stored track's distance masked by the filter |
| TracksStore.TotalDistanceOfKeptTracks | src/stores/tracks.store.ts:43 | the total distance covers exactly the passing tracks, a missing distance counting as 0 |
| TracksStore.CountOfHiddenKind | src/stores/tracks.store.ts:22-46 | the view holds no track of a hidden category |
| TracksStore.CountOfShownKind | src/stores/tracks.store.ts:22-46 | with no ranges, the view holds every stored track of a shown category |
| TracksStore.HiddenCategoryCountsZero | src/stores/tracks.store.ts:40-48 | a hidden category's count is 0 |
| TracksStore.ShownCategoryCountsAll | src/stores/tracks.store.ts:40-48 | with no ranges, a shown category's count is the number of stored tracks of that category |
| TracksStore.AddTrackAppends | src/stores/tracks.store.ts:51-53 | adding puts the track at the end, keeps duplicates, and leaves the old tracks and the filters alone |
| TracksStore.AddTracksAppends | src/stores/tracks.store.ts:55-57 | adding several appends them in order after the old tracks, keeping duplicates and the filters |
| TracksStore.AddTracksIsAddTrackEach | src/stores/tracks.store.ts:51-57 | adding several is the same as adding each in turn |
| TracksStore.AddTracksView | src/stores/tracks.store.ts:19-57 | after adding, the view is the old view followed by the new tracks that pass, and the count grows by their number |
| TracksStore.LoadIntoInitialState | src/stores/tracks.store.ts:8-57 | tracks added to the fresh store are all shown, and the count is their number |
| TracksStore.AddTrack | src/stores/tracks.store.ts:51-53 | `push`; by AddTrackAppends: appends at the end and keeps the filters |
| TracksStore.AddTracks | src/stores/tracks.store.ts:55-57 | `push(...)`; by AddTracksAppends and AddTracksIsAddTrackEach: appends in order, as adding each in turn |
| TracksStore.ClearTracks | src/stores/tracks.store.ts:59-61 | by ClearTracksEmpties: an empty store with the same filters |
| TracksStore.MergeFilters | src/stores/tracks.store.ts:63-65 | the object spread; by MergeFieldwise and MergeLaws: field by field, identity for the empty update, idempotent |
| TracksStore.UpdateFilters | src/stores/tracks.store.ts:63-65 | by UpdateFiltersKeepsTracks: merges the filters and leaves the tracks alone |
| TracksStore.ToggleSport | src/stores/tracks.store.ts:67-69 | by TogglesAreInvolutions: flips `showSport`, equals the one-field update, undoes itself |
| TracksStore.ToggleDivers | src/stores/tracks.store.ts:71-73 | by TogglesAreInvolutions: flips `showDivers`, equals the one-field update, undoes itself |
| TracksStore.ClearTracksEmpties | src/stores/tracks.store.ts:59-61 | clearing empties the store, zeroes every statistic and keeps the filters |
| TracksStore.MergeFieldwise | src/stores/tracks.store.ts:63-65 | each merged field is the supplied value, or the old one when the update leaves it out |
| TracksStore.MergeLaws | src/stores/tracks.store.ts:63-65 | an empty update changes nothing, and applying an update twice equals applying it once |
| TracksStore.UpdateFiltersKeepsTracks | src/stores/tracks.store.ts:63-65 | updating the filters leaves the tracks alone |
| TracksStore.TogglesAreInvolutions | src/stores/tracks.store.ts:67-73 | each toggle flips its one flag and equals the update that supplies only that flag; toggling twice restores the state |
| JsNumber.IntToDecimalRoundTrip | src/services/gpx.service.ts:36 | rendering an integer and parsing it back gives the integer |
| JsNumber.ParseIntOfRendering | src/utils/geo.utils.ts:97-110 | an integer's rendering, followed by text that does not extend the number, parses back to the integer |
| JsNumber.ParseInt | server/index.js:53-54 | `parseInt` with no radix; by ParseIntOfDigits, ParseIntOfRendering and ParseIntNoDigits: digits read as their value, renderings read back, no leading number gives NaN |
| JsNumber.ParseIntOfDigits | server/index.js:53-54 | a string of decimal digits parses to its value |
| JsNumber.ParseIntNoDigits | server/index.js:53-54 | a string starting with neither space, sign nor digit parses to NaN |
| JsNumber.OrIfFalsy | server/index.js:53-54 | the fallback form gives the parsed value when it is a non-zero number, and the fallback otherwise |
| JsNumber.JsRound | src/utils/geo.utils.ts:97 | `Math.round(x)` lies within half of x: n - 0.5 ≤ x < n + 0.5 |
| JsNumber.JsRem | src/utils/geo.utils.ts:107 | JavaScript's `%` keeps the dividend's sign, has magnitude below the divisor, and differs from the dividend by a whole multiple of the divisor |
| JsNumber.FloorDivBounds | src/utils/geo.utils.ts:106-107 | `Math.floor(x / d)` names the d-wide slot that contains x |
| JsNumber.NatToDecimal | src/utils/geo.utils.ts:97-110 | the rendering is non-empty and all digits, has no leading zero, and reads back as the number |
| Text.JoinSplit | server/index.js:37 | joining the pieces of a split gives back the string |
| Text.SplitJoin | server/index.js:37-47 | splitting separator-free pieces joined by the separator gives back the pieces |
| Text.Split | server/index.js:37-47 | `split` returns at least one piece, none containing the separator |

## Left out

- The XML extraction in `parseGpxFile` (`DOMParser`, `extractPoints`, `getElementText`) and `new Date(...)`. Points, the name and the date are inputs to `ParseGpxFile`.
- The haversine formula, `toRadians`, `toDegrees` and `calculateCenter`. They are floating-point trigonometry; the distance is an abstract symmetric, non-negative parameter.
- `formatSpeed`, and the `toFixed(2)` kilometre text of `formatDistance`, because binary-float rounding is not modelled. The kilometre text is the parameter `fixed2`.
- `loadAllTracks` and `loadTracksByPeriod`: network fetches and logging.
- The rest of `server/index.js`:
  - the Express endpoints and the 501 upload route;
  - `fs.readdirSync`, `fs.statSync` and the recursion into sub-directories;
  - `path.relative`, `path.join` and `fullPath`;
  - the error log.

  A directory is modelled as the list of its file entries' relative paths, split on '/'.
- `src/router/index.ts`: routing configuration.
- Pinia and Vue reactivity, and the `isLoading`, `isFiltering` and `error` flags. The computed views are functions of the state.
- `countries`, `cities` and `maxElevation` in the statistics: the store never computes them.
- Floating point throughout. Lengths, elevations, durations and speeds are exact reals, so there is no NaN, no Infinity and no rounding error. A NaN coordinate or elevation from `parseFloat` of unreadable text (src/services/gpx.service.ts:127-131) is not modelled.
- GpxService.Duration: a `<time>` whose text does not parse gives an Invalid Date, which is still truthy, so `calculateDuration` returns NaN (src/services/gpx.service.ts:134, 183-184). Times are parsed before the model sees them, so this case is not modelled.
- JsNumber.ParseInt: values are exact integers, so the precision loss of `parseInt` above 2^53 is not modelled.
- JsNumber.IntToDecimal: the exponent notation JavaScript uses from 1e21 on is not modelled.
- GpxService.GenerateId: it works on Unicode scalar values. JavaScript works on UTF-16 code units, so a character outside the Basic Multilingual Plane yields one `_` here and two in the source.
- Text.AsciiLower: only ASCII letters are lower-cased. No other character lower-cases to '.', 'g', 'p' or 'x', so the `.gpx` test is exact.
- TracksStore.FilterPatch: a field explicitly set to `undefined` in the update is modelled only for the two ranges, where it removes the range. For the flags and lists it is not modelled.
- TracksStore.Keep: a track year or month that is NaN is not modelled, because the descriptor fields are always numbers here.

=== FILE: example_path.dfy ===
/** A sample relative path in the `YYYY/MM/type/YYYY-MM-DD_subType_name.gpx`
    layout the data directory follows, and the facts about it that the
    worked examples of the service and the server share. */
module ExamplePath {
  import opened Text
  import opened JsNumber

  // The literals are written as concatenations of their segments so that proofs
  // about the segments see the structure without unfolding character by character.
  const FileName: string := "2023-07-04" + "_" + "rando" + "_" + "summit.gpx"
  const Path: string := "2023" + "/" + "07" + "/" + "sport" + "/" + FileName
  const Segments: seq<string> := ["2023", "07", "sport", FileName]

  /** The year and month segments read as decimal numerals. */
  lemma SegmentValues()
    ensures ValueOf("2023", 10) == 2023
    ensures ValueOf("07", 10) == 7
  {
    FourDigitValue("2023");
    TwoDigitValue("07");
  }

  lemma JoinFour(parts: seq<string>, sep: char)
    requires |parts| == 4
    ensures Join(parts, sep) == parts[0] + [sep] + parts[1] + [sep] + parts[2] + [sep] + parts[3]
  {
    assert Join(parts[2..], sep) == parts[2] + [sep] + parts[3] by { assert parts[2..][1..] == parts[3..]; }
    assert Join(parts[1..], sep) == parts[1] + [sep] + Join(parts[2..], sep) by { assert parts[1..][1..] == parts[2..]; }
  }

  lemma JoinedSegments()
    ensures Join(Segments, '/') == Path
  {
    JoinFour(Segments, '/');
  }

  lemma SegmentsHaveNoSlash()
    ensures forall i :: 0 <= i < |Segments| ==> '/' !in Segments[i]
  {
    assert '/' !in "2023-07-04" && '/' !in "rando" && '/' !in "summit.gpx";
  }

  /** The example path splits into its four segments. */
  lemma SplitPath()
    ensures Split(Path, '/') == Segments
  {
    JoinedSegments();
    SegmentsHaveNoSlash();
    SplitJoin(Segments, '/');
  }

}

=== FILE: geo_utils.dfy ===
/** Geographic helpers: the bounding box of a track and the text forms of a
    duration and a distance. */
module GeoUtils {
  import opened Optional
  import opened Text
  import opened JsNumber
  import opened GpxTypes

  datatype Bounds = Bounds(minLat: real, maxLat: real, minLon: real, maxLon: real)

  /** `Math.min`. */
  function Min(a: real, b: real): real {
    if a <= b then a else b
  }

  /** `Math.max`. */
  function Max(a: real, b: real): real {
    if a >= b then a else b
  }

  /** The box widened to cover `p`: one iteration of the scan. */
  function Widen(b: Bounds, p: Point): Bounds {
    Bounds(Min(b.minLat, p.lat), Max(b.maxLat, p.lat), Min(b.minLon, p.lon), Max(b.maxLon, p.lon))
  }

  /** Every point lies inside the box. */
  ghost predicate Encloses(b: Bounds, points: seq<Point>) {
    forall p :: p in points ==> b.minLat <= p.lat <= b.maxLat && b.minLon <= p.lon <= b.maxLon
  }

  /** Each edge of the box is some point's coordinate. */
  ghost predicate Attained(b: Bounds, points: seq<Point>) {
    && (exists p :: p in points && p.lat == b.minLat)
    && (exists p :: p in points && p.lat == b.maxLat)
    && (exists p :: p in points && p.lon == b.minLon)
    && (exists p :: p in points && p.lon == b.maxLon)
  }

  /** The scan from a starting box: it ends with a box that covers the start box and
      every point, and each edge is the start box's or some point's coordinate. */
  function ScanBounds(start: Bounds, points: seq<Point>): (b: Bounds)
    ensures b.minLat <= start.minLat && start.maxLat <= b.maxLat
    ensures b.minLon <= start.minLon && start.maxLon <= b.maxLon
    ensures Encloses(b, points)
    ensures b.minLat == start.minLat || exists p :: p in points && p.lat == b.minLat
    ensures b.maxLat == start.maxLat || exists p :: p in points && p.lat == b.maxLat
    ensures b.minLon == start.minLon || exists p :: p in points && p.lon == b.minLon
    ensures b.maxLon == start.maxLon || exists p :: p in points && p.lon == b.maxLon
    decreases |points|
  {
    if |points| == 0 then start
    else
      var b := ScanBounds(Widen(start, points[0]), points[1..]);
      assert forall p :: p in points[1..] ==> p in points;
      assert points[0] in points;
      b
  }

  /** `calculateBounds`: all zero for no points, otherwise the smallest box around them. */
  function CalculateBounds(points: seq<Point>): (b: Bounds)
    ensures |points| == 0 ==> b == Bounds(0.0, 0.0, 0.0, 0.0)
    ensures |points| > 0 ==> Encloses(b, points) && Attained(b, points)
  {
    if |points| == 0 then Bounds(0.0, 0.0, 0.0, 0.0)
    else
      var first := points[0];
      assert first in points;
      ScanBounds(Bounds(first.lat, first.lat, first.lon, first.lon), points)
  }

  /** A box that encloses and is attained by the same points is unique. */
  lemma BoundsUnique(a: Bounds, b: Bounds, points: seq<Point>)
    requires Encloses(a, points) && Attained(a, points)
    requires Encloses(b, points) && Attained(b, points)
    ensures a == b
  {
  }

  /** The box does not depend on the order of the points. */
  lemma BoundsOrderIndependent(xs: seq<Point>, ys: seq<Point>)
    requires multiset(xs) == multiset(ys)
    ensures CalculateBounds(xs) == CalculateBounds(ys)
  {
    assert forall p :: p in xs <==> p in ys by {
      forall p ensures p in xs <==> p in ys {
        assert p in xs <==> p in multiset(xs);
        assert p in ys <==> p in multiset(ys);
      }
    }
    assert |xs| == |multiset(xs)| == |multiset(ys)| == |ys|;
    if |xs| > 0 {
      BoundsUnique(CalculateBounds(xs), CalculateBounds(ys), ys);
    }
  }

  // ---------------------------------------------------------------- durations

  /** Whole hours, `Math.floor(s / 3600)`, and the whole minutes of the rest,
      `Math.floor((s % 3600) / 60)`. */
  function DurationParts(seconds: real): (hm: (int, int))
    ensures seconds >= 0.0 ==> hm.0 >= 0 && 0 <= hm.1 < 60
    ensures seconds >= 0.0 ==> (3600 * hm.0 + 60 * hm.1) as real <= seconds < (3600 * hm.0 + 60 * hm.1 + 60) as real
  {
    var hours := (seconds / 3600.0).Floor;
    var rest := JsRem(seconds, 3600.0);
    var minutes := (rest / 60.0).Floor;
    FloorDivBounds(seconds, 3600.0);
    FloorDivBounds(rest, 60.0);
    assert seconds >= 0.0 ==> rest == seconds - hours as real * 3600.0;
    (hours, minutes)
  }

  /** For whole seconds these are Euclidean quotient and remainder. */
  lemma DurationPartsOfWholeSeconds(s: nat)
    ensures DurationParts(s as real) == (s / 3600, (s % 3600) / 60)
  {
    var (h, m) := DurationParts(s as real);
    assert 3600 * h + 60 * m <= s < 3600 * h + 60 * m + 60;
    assert h == s / 3600;
    assert m == (s % 3600) / 60;
  }

  /** `formatDuration`: "{h}h {m}min" when there are whole hours, else "{m}min". */
  function FormatDuration(seconds: real): string {
    var (hours, minutes) := DurationParts(seconds);
    if hours > 0 then IntToDecimal(hours) + "h " + IntToDecimal(minutes) + "min"
    else IntToDecimal(minutes) + "min"
  }

  /** From one hour on, the text is the whole hours, "h ", the whole minutes and "min". */
  lemma FormatDurationHours(seconds: real)
    requires seconds >= 3600.0
    ensures DurationParts(seconds).0 >= 1
    ensures FormatDuration(seconds) ==
              IntToDecimal(DurationParts(seconds).0) + "h " + IntToDecimal(DurationParts(seconds).1) + "min"
    ensures ParseInt(FormatDuration(seconds)) == Some(DurationParts(seconds).0)
    ensures EndsWith(FormatDuration(seconds), "min")
    ensures var k := |IntToDecimal(DurationParts(seconds).0)| + 2;
            && FormatDuration(seconds)[..k] == IntToDecimal(DurationParts(seconds).0) + "h "
            && FormatDuration(seconds)[k..] == IntToDecimal(DurationParts(seconds).1) + "min"
            && ParseInt(FormatDuration(seconds)[k..]) == Some(DurationParts(seconds).1)
  {
    var hm := DurationParts(seconds);
    var hours := IntToDecimal(hm.0);
    var minutes := IntToDecimal(hm.1) + "min";
    var tail := "h " + minutes;
    var text := FormatDuration(seconds);
    assert text == hours + tail;
    ParseIntOfRendering(hm.0, tail);
    var k := |hours| + 2;
    assert text == (hours + "h ") + minutes;
    assert text[..k] == hours + "h ";
    assert text[k..] == minutes;
    ParseIntOfRendering(hm.1, "min");
  }

  /** Below an hour, negative durations included, the text is the whole minutes alone;
      the hour count is 0 for a non-negative duration and negative below zero. */
  lemma FormatDurationMinutes(seconds: real)
    requires seconds < 3600.0
    ensures DurationParts(seconds).0 <= 0
    ensures seconds >= 0.0 ==> DurationParts(seconds).0 == 0
    ensures FormatDuration(seconds) == IntToDecimal(DurationParts(seconds).1) + "min"
    ensures ParseInt(FormatDuration(seconds)) == Some(DurationParts(seconds).1)
    ensures EndsWith(FormatDuration(seconds), "min")
  {
    FloorDivBounds(seconds, 3600.0);
    var hm := DurationParts(seconds);
    assert FormatDuration(seconds) == IntToDecimal(hm.1) + "min";
    ParseIntOfRendering(hm.1, "min");
  }

  /** A negative duration, as reversed timestamps give: -90 s is "-2min". */
  lemma FormatDurationNegativeExample()
    ensures FormatDuration(-90.0) == "-2min"
  {
    assert (-90.0 / 3600.0).Floor == -1;
    assert Trunc(-90.0 / 3600.0) == 0;
    assert JsRem(-90.0, 3600.0) == -90.0;
    assert (-90.0 / 60.0).Floor == -2;
    assert DurationParts(-90.0) == (-1, -2);
    assert IntToDecimal(-2) == "-2";
  }

  lemma FormatDurationExamples()
    ensures FormatDuration(90.0) == "1min"
    ensures FormatDuration(3660.0) == "1h 1min"
  {
    DurationPartsOfWholeSeconds(90);
    DurationPartsOfWholeSeconds(3660);
    assert IntToDecimal(1) == "1";
  }

  // ---------------------------------------------------------------- distances

  /** `formatDistance`: whole metres below 1000, else kilometres. The kilometre
      figure is rendered by `fixed2`, JavaScript's `toFixed(2)`. */
  function FormatDistance(meters: real, fixed2: real -> string): string {
    if meters < 1000.0 then IntToDecimal(JsRound(meters)) + " m"
    else fixed2(meters / 1000.0) + " km"
  }

  /** The metre branch is taken exactly below 1000. */
  lemma FormatDistanceUnit(meters: real, fixed2: real -> string)
    ensures EndsWith(FormatDistance(meters, fixed2), " m") <==> meters < 1000.0
    ensures EndsWith(FormatDistance(meters, fixed2), " km") <==> meters >= 1000.0
  {
    var text := FormatDistance(meters, fixed2);
    if meters < 1000.0 {
      var digits := IntToDecimal(JsRound(meters));
      assert text[|text| - 2..] == " m";
      assert text[|text| - 3] == digits[|digits| - 1];
      assert digits[|digits| - 1] != ' ' by {
        if JsRound(meters) < 0 {
          assert digits[|digits| - 1] == NatToDecimal(-JsRound(meters))[|NatToDecimal(-JsRound(meters))| - 1];
        }
      }
    } else {
      assert text[|text| - 3..] == " km";
      assert text[|text| - 2] == 'k';
    }
  }

  /** Below 1000, the text reads back as the rounded number of metres. */
  lemma FormatDistanceReadsBack(meters: real, fixed2: real -> string)
    requires meters < 1000.0
    ensures ParseInt(FormatDistance(meters, fixed2)) == Some(JsRound(meters))
    ensures JsRound(meters) as real - 0.5 <= meters < JsRound(meters) as real + 0.5
  {
    ParseIntOfRendering(JsRound(meters), " m");
  }

  /** A whole number of metres below 1000 is shown as its own digits. */
  lemma FormatWholeMeters(n: nat, fixed2: real -> string)
    requires n < 1000
    ensures FormatDistance(n as real, fixed2) == NatToDecimal(n) + " m"
  {
    assert JsRound(n as real) == n;
  }

  lemma FormatDistanceExample(fixed2: real -> string)
    ensures FormatDistance(999.0, fixed2) == "999 m"
  {
    FormatWholeMeters(999, fixed2);
    assert NatToDecimal(99) == "99";
    assert NatToDecimal(999) == "999";
  }
}

=== FILE: gpx_service.dfy ===
/** Metric and metadata derivation for one GPX file: path length, elevation
    gain, duration, average speed, the year and month found in the file path,
    and the track id. The XML extraction is not modelled: the points, the
    document's name text and its parsed top-level time are inputs. */
module GpxService {
  import opened Optional
  import opened Text
  import opened JsNumber
  import opened GpxTypes
  import opened ExamplePath

  /** The distance in metres between two points (the haversine formula in the source). */
  type Metric = (Point, Point) -> real

  ghost predicate Symmetric(dist: Metric) {
    forall p, q :: dist(p, q) == dist(q, p)
  }

  ghost predicate NonNegative(dist: Metric) {
    forall p, q :: dist(p, q) >= 0.0
  }

  function Reversed<T>(s: seq<T>): (r: seq<T>)
    ensures |r| == |s|
    ensures forall i :: 0 <= i < |s| ==> r[i] == s[|s| - 1 - i]
  {
    seq(|s|, i requires 0 <= i < |s| => s[|s| - 1 - i])
  }

  // ---------------------------------------------------------------- distance

  /** Length of the path: the distances between consecutive points, added in order. */
  function PathLength(points: seq<Point>, dist: Metric): (length: real)
    ensures NonNegative(dist) ==> length >= 0.0
    decreases |points|
  {
    if |points| < 2 then 0.0
    else PathLength(points[..|points| - 1], dist) + dist(points[|points| - 2], points[|points| - 1])
  }

  /** `calculateDistance`: one pass over the consecutive pairs. */
  method CalculateDistance(points: seq<Point>, dist: Metric) returns (distance: real)
    ensures distance == PathLength(points, dist)
    ensures |points| < 2 ==> distance == 0.0
  {
    distance := 0.0;
    var i := 1;
    while i < |points|
      invariant |points| == 0 || 1 <= i <= |points|
      invariant |points| == 0 ==> distance == 0.0
      invariant |points| > 0 ==> distance == PathLength(points[..i], dist)
    {
      assert points[..i + 1][..i] == points[..i];
      distance := distance + dist(points[i - 1], points[i]);
      i := i + 1;
    }
    assert |points| > 0 ==> points[..i] == points;
  }

  /** Prepending a point adds its distance to the old first point. */
  lemma {:induction false} PathLengthPrepend(p: Point, s: seq<Point>, dist: Metric)
    requires |s| >= 1
    ensures PathLength([p] + s, dist) == dist(p, s[0]) + PathLength(s, dist)
    decreases |s|
  {
    if |s| == 1 {
      assert ([p] + s)[..1] == [p];
    } else {
      var t := s[..|s| - 1];
      PathLengthPrepend(p, t, dist);
      assert ([p] + s)[..|s|] == [p] + t;
    }
  }

  /** With a symmetric distance, walking the points backwards gives the same length. */
  lemma {:induction false} PathLengthReversed(points: seq<Point>, dist: Metric)
    requires Symmetric(dist)
    ensures PathLength(Reversed(points), dist) == PathLength(points, dist)
    decreases |points|
  {
    if |points| >= 2 {
      var q := points[..|points| - 1];
      var x := points[|points| - 1];
      assert Reversed(points) == [x] + Reversed(q);
      PathLengthReversed(q, dist);
      PathLengthPrepend(x, Reversed(q), dist);
      assert dist(x, q[|q| - 1]) == dist(q[|q| - 1], x);
    }
  }

  // ----------------------------------------------------------- elevation gain

  /** `point.ele || 0`: a missing elevation counts as 0. */
  function Ele(p: Point): real {
    p.ele.GetOr(0.0)
  }

  /** The positive part of the elevation change from `a` to `b`. */
  function Climb(a: Point, b: Point): real {
    if Ele(b) - Ele(a) > 0.0 then Ele(b) - Ele(a) else 0.0
  }

  /** The negative part of the elevation change from `a` to `b`, as a positive number. */
  ghost function Drop(a: Point, b: Point): real {
    if Ele(b) - Ele(a) < 0.0 then Ele(a) - Ele(b) else 0.0
  }

  /** Total climb: the positive elevation changes between consecutive points, added in order. */
  function ElevationGain(points: seq<Point>): (gain: real)
    ensures gain >= 0.0
    ensures |points| < 2 ==> gain == 0.0
    decreases |points|
  {
    if |points| < 2 then 0.0
    else ElevationGain(points[..|points| - 1]) + Climb(points[|points| - 2], points[|points| - 1])
  }

  /** Total descent, the counterpart of ElevationGain. */
  ghost function ElevationLoss(points: seq<Point>): real
    decreases |points|
  {
    if |points| < 2 then 0.0
    else ElevationLoss(points[..|points| - 1]) + Drop(points[|points| - 2], points[|points| - 1])
  }

  /** `calculateElevationGain`: one pass over the consecutive pairs. */
  method CalculateElevationGain(points: seq<Point>) returns (gain: real)
    ensures gain == ElevationGain(points)
  {
    gain := 0.0;
    var i := 1;
    while i < |points|
      invariant |points| == 0 || 1 <= i <= |points|
      invariant |points| == 0 ==> gain == 0.0
      invariant |points| > 0 ==> gain == ElevationGain(points[..i])
    {
      assert points[..i + 1][..i] == points[..i];
      var diff := Ele(points[i]) - Ele(points[i - 1]);
      if diff > 0.0 {
        gain := gain + diff;
      }
      i := i + 1;
    }
    assert |points| > 0 ==> points[..i] == points;
  }

  /** Climb minus descent telescopes to the net change between the endpoints. */
  lemma {:induction false} GainMinusLoss(points: seq<Point>)
    requires |points| >= 1
    ensures ElevationLoss(points) >= 0.0
    ensures ElevationGain(points) - ElevationLoss(points) == Ele(points[|points| - 1]) - Ele(points[0])
    decreases |points|
  {
    if |points| >= 2 {
      var q := points[..|points| - 1];
      GainMinusLoss(q);
      assert q[0] == points[0] && q[|q| - 1] == points[|points| - 2];
    }
  }

  /** The gain is at least the net climb from the first to the last point. */
  lemma GainAtLeastNetClimb(points: seq<Point>)
    requires |points| >= 1
    ensures ElevationGain(points) >= Ele(points[|points| - 1]) - Ele(points[0])
  {
    GainMinusLoss(points);
  }

  ghost predicate NonDecreasingEle(points: seq<Point>) {
    forall i :: 0 < i < |points| ==> Ele(points[i - 1]) <= Ele(points[i])
  }

  lemma {:induction false} LossZeroIff(points: seq<Point>)
    ensures ElevationLoss(points) >= 0.0
    ensures ElevationLoss(points) == 0.0 <==> NonDecreasingEle(points)
    decreases |points|
  {
    if |points| >= 2 {
      var q := points[..|points| - 1];
      LossZeroIff(q);
      assert forall i :: 0 <= i < |q| ==> q[i] == points[i];
      if NonDecreasingEle(points) {
        assert NonDecreasingEle(q);
      }
    }
  }

  /** The gain equals the net climb exactly when elevation never decreases along the path. */
  lemma GainEqualsNetClimbIff(points: seq<Point>)
    requires |points| >= 1
    ensures ElevationGain(points) == Ele(points[|points| - 1]) - Ele(points[0])
            <==> NonDecreasingEle(points)
  {
    GainMinusLoss(points);
    LossZeroIff(points);
  }

  // ----------------------------------------------------------------- duration

  /** `calculateDuration`: seconds from the first point's time to the last point's;
      0 with fewer than two points or when either endpoint has no time. */
  function Duration(points: seq<Point>): (seconds: real)
    ensures |points| < 2 || points[0].time.None? || points[|points| - 1].time.None? ==> seconds == 0.0
    ensures |points| >= 2 && points[0].time.Some? && points[|points| - 1].time.Some? ==>
              seconds * 1000.0 == (points[|points| - 1].time.value - points[0].time.value) as real
  {
    if |points| < 2 then 0.0
    else match (points[0].time, points[|points| - 1].time)
      case (Some(t0), Some(t1)) => (t1 - t0) as real / 1000.0
      case _ => 0.0
  }

  /** Only the endpoints' times matter. */
  lemma DurationIgnoresInterior(p: seq<Point>, q: seq<Point>)
    requires |p| >= 2 && |q| >= 2
    requires p[0].time == q[0].time && p[|p| - 1].time == q[|q| - 1].time
    ensures Duration(p) == Duration(q)
  {
  }

  /** Reversing a timed path negates its duration. */
  lemma DurationReversed(points: seq<Point>)
    ensures Duration(Reversed(points)) == -Duration(points)
  {
  }

  /** The average speed in km/h: distance over duration, or 0 unless the duration is positive. */
  function AvgSpeed(distance: real, duration: real): (speed: real)
    ensures duration <= 0.0 ==> speed == 0.0
    ensures duration > 0.0 ==> speed * duration == 3.6 * distance
    ensures distance >= 0.0 ==> speed >= 0.0
  {
    if duration > 0.0 then distance / 1000.0 / (duration / 3600.0) else 0.0
  }

  /** Timestamps out of order (or equal) give a zero average speed. */
  lemma UnorderedTimesGiveZeroSpeed(points: seq<Point>, dist: Metric)
    requires |points| >= 2 && points[0].time.Some? && points[|points| - 1].time.Some?
    requires points[|points| - 1].time.value <= points[0].time.value
    ensures AvgSpeed(PathLength(points, dist), Duration(points)) == 0.0
  {
  }

  // ------------------------------------------------------ year and month in path

  /** `/^\d{4}$/`. */
  predicate IsYearSegment(seg: string) {
    |seg| == 4 && forall i :: 0 <= i < 4 ==> IsAsciiDigit(seg[i])
  }

  /** `/^(0?[1-9]|1[0-2])$/`. */
  predicate IsMonthSegment(seg: string) {
    || (|seg| == 1 && '1' <= seg[0] <= '9')
    || (|seg| == 2 && seg[0] == '0' && '1' <= seg[1] <= '9')
    || (|seg| == 2 && seg[0] == '1' && '0' <= seg[1] <= '2')
  }

  /** The index of the first piece that matches, or `|parts|` if none does. */
  function FirstMatch(parts: seq<string>, matches: string -> bool): (k: nat)
    ensures k <= |parts|
    ensures forall j :: 0 <= j < k ==> !matches(parts[j])
    ensures k < |parts| ==> matches(parts[k])
    decreases |parts|
  {
    if |parts| == 0 || matches(parts[0]) then 0 else 1 + FirstMatch(parts[1..], matches)
  }

  /** `parts.find(matches)`. */
  function Find(parts: seq<string>, matches: string -> bool): Option<string> {
    var k := FirstMatch(parts, matches);
    if k < |parts| then Some(parts[k]) else None
  }

  /** The year of a file: the first four-digit path segment, else the current year. */
  function PathYear(filePath: string, currentYear: int): int {
    var token := Find(Split(filePath, '/'), IsYearSegment).GetOr(IntToDecimal(currentYear));
    ParseInt(token).GetOr(0)  // never NaN: see PathYearSpec
  }

  /** The month of a file: the first path segment that is a month number, else 1. */
  function PathMonth(filePath: string): int {
    var token := Find(Split(filePath, '/'), IsMonthSegment).GetOr("1");
    ParseInt(token).GetOr(0)  // never NaN: see PathMonthSpec
  }

  lemma YearSegmentValue(seg: string)
    requires IsYearSegment(seg)
    ensures ParseInt(seg) == Some(ValueOf(seg, 10))
  {
    ParseIntOfDigits(seg);
  }

  lemma MonthSegmentValue(seg: string)
    requires IsMonthSegment(seg)
    ensures ParseInt(seg) == Some(ValueOf(seg, 10))
    ensures 1 <= ValueOf(seg, 10) <= 12
  {
    ParseIntOfDigits(seg);
    if |seg| == 2 {
      TwoDigitValue(seg);
    } else {
      assert seg[..0] == [];
    }
  }

  /** The year is the value of the first four-digit segment, or the current year when there is none. */
  lemma PathYearSpec(filePath: string, currentYear: int)
    ensures var parts := Split(filePath, '/');
            (forall i :: 0 <= i < |parts| ==> !IsYearSegment(parts[i])) ==> PathYear(filePath, currentYear) == currentYear
    ensures var parts := Split(filePath, '/');
            forall i :: 0 <= i < |parts| && IsYearSegment(parts[i]) && (forall j :: 0 <= j < i ==> !IsYearSegment(parts[j])) ==>
              PathYear(filePath, currentYear) == ValueOf(parts[i], 10)
  {
    var parts := Split(filePath, '/');
    var k := FirstMatch(parts, IsYearSegment);
    if k < |parts| {
      PathYearFound(filePath, currentYear, k);
      assert IsYearSegment(parts[k]);
      forall i | 0 <= i < |parts| && IsYearSegment(parts[i]) && (forall j :: 0 <= j < i ==> !IsYearSegment(parts[j]))
        ensures i == k
      {
      }
    } else {
      PathYearFallback(filePath, currentYear);
    }
  }

  lemma PathYearFound(filePath: string, currentYear: int, k: nat)
    requires k == FirstMatch(Split(filePath, '/'), IsYearSegment) && k < |Split(filePath, '/')|
    ensures PathYear(filePath, currentYear) == ValueOf(Split(filePath, '/')[k], 10)
  {
    var seg := Split(filePath, '/')[k];
    assert Find(Split(filePath, '/'), IsYearSegment) == Some(seg);
    YearSegmentValue(seg);
  }

  lemma PathYearFallback(filePath: string, currentYear: int)
    requires FirstMatch(Split(filePath, '/'), IsYearSegment) == |Split(filePath, '/')|
    ensures PathYear(filePath, currentYear) == currentYear
  {
    assert Find(Split(filePath, '/'), IsYearSegment) == None;
    IntToDecimalRoundTrip(currentYear);
  }

  /** The month is the value of the first month-number segment, or 1; always in 1..12. */
  lemma PathMonthSpec(filePath: string)
    ensures 1 <= PathMonth(filePath) <= 12
    ensures var parts := Split(filePath, '/');
            (forall i :: 0 <= i < |parts| ==> !IsMonthSegment(parts[i])) ==> PathMonth(filePath) == 1
    ensures var parts := Split(filePath, '/');
            forall i :: 0 <= i < |parts| && IsMonthSegment(parts[i]) && (forall j :: 0 <= j < i ==> !IsMonthSegment(parts[j])) ==>
              PathMonth(filePath) == ValueOf(parts[i], 10)
  {
    var parts := Split(filePath, '/');
    var k := FirstMatch(parts, IsMonthSegment);
    if k < |parts| {
      PathMonthFound(filePath, k);
      assert IsMonthSegment(parts[k]);
      forall i | 0 <= i < |parts| && IsMonthSegment(parts[i]) && (forall j :: 0 <= j < i ==> !IsMonthSegment(parts[j]))
        ensures i == k
      {
      }
    } else {
      PathMonthFallback(filePath);
    }
  }

  lemma PathMonthFound(filePath: string, k: nat)
    requires k == FirstMatch(Split(filePath, '/'), IsMonthSegment) && k < |Split(filePath, '/')|
    ensures PathMonth(filePath) == ValueOf(Split(filePath, '/')[k], 10)
    ensures 1 <= PathMonth(filePath) <= 12
  {
    var seg := Split(filePath, '/')[k];
    assert Find(Split(filePath, '/'), IsMonthSegment) == Some(seg);
    MonthSegmentValue(seg);
  }

  lemma PathMonthFallback(filePath: string)
    requires FirstMatch(Split(filePath, '/'), IsMonthSegment) == |Split(filePath, '/')|
    ensures PathMonth(filePath) == 1
  {
    assert Find(Split(filePath, '/'), IsMonthSegment) == None;
    MonthSegmentValue("1");
    assert ValueOf("1", 10) == 1 by { assert "1"[..0] == ""; }
  }

  // ----------------------------------------------------------------------- id

  /** `filePath.replace(/[^a-zA-Z0-9]/g, '_')`. */
  function GenerateId(filePath: string): (id: string)
    ensures |id| == |filePath|
    ensures forall i :: 0 <= i < |id| && IsAsciiAlnum(filePath[i]) ==> id[i] == filePath[i]
    ensures forall i :: 0 <= i < |id| && !IsAsciiAlnum(filePath[i]) ==> id[i] == '_'
    decreases |filePath|
  {
    if |filePath| == 0 then ""
    else [if IsAsciiAlnum(filePath[0]) then filePath[0] else '_'] + GenerateId(filePath[1..])
  }

  /** Sanitising an id again changes nothing. */
  lemma GenerateIdIdempotent(filePath: string)
    ensures GenerateId(GenerateId(filePath)) == GenerateId(filePath)
  {
    var id := GenerateId(filePath);
    assert forall i :: 0 <= i < |id| ==> GenerateId(id)[i] == id[i];
  }

  /** Distinct paths can share an id. */
  lemma GenerateIdNotInjective()
    ensures "a/b" != "a.b" && GenerateId("a/b") == GenerateId("a.b")
  {
    assert GenerateId("a/b") == "a_b";
    assert GenerateId("a.b") == "a_b";
  }

  // -------------------------------------------------------------- whole track

  /** `getElementText(doc, 'name') || 'Sans nom'`. */
  function TrackName(name: Option<string>): (n: string)
    ensures n != ""
    ensures name.Some? && name.value != "" ==> n == name.value
    ensures name.None? || name.value == "" ==> n == "Sans nom"
  {
    if name.Some? && name.value != "" then name.value else "Sans nom"
  }

  /** `parseGpxFile` once the document has been read: `name` is the text of the first
      `name` element, `date` the parsed first `time` element, `points` the track points
      in document order. */
  function ParseGpxFile(name: Option<string>, date: Option<int>, points: seq<Point>, filePath: string,
                        kind: Category, subType: string, currentYear: int, dist: Metric): (t: Track)
    ensures t.points == points && t.filePath == filePath && t.kind == kind && t.subType == subType && t.date == date
    ensures t.name != ""
    ensures 1 <= t.month <= 12
    ensures |points| < 2 ==> t.distance == Some(0.0) && t.duration == Some(0.0)
                             && t.elevationGain == Some(0.0) && t.avgSpeed == Some(0.0)
    ensures t.id == GenerateId(filePath) && t.name == TrackName(name)
    ensures t.year == PathYear(filePath, currentYear) && t.month == PathMonth(filePath)
    ensures t.distance == Some(PathLength(points, dist)) && t.duration == Some(Duration(points))
    ensures t.elevationGain == Some(ElevationGain(points))
    ensures t.avgSpeed.Some? && t.distance.Some? && t.duration.Some?
    ensures t.duration.value <= 0.0 ==> t.avgSpeed.value == 0.0
    ensures t.avgSpeed == Some(AvgSpeed(t.distance.value, t.duration.value))
  {
    PathMonthSpec(filePath);
    var year := PathYear(filePath, currentYear);
    var month := PathMonth(filePath);
    var distance := PathLength(points, dist);
    var duration := Duration(points);
    var speed := AvgSpeed(distance, duration);
    Track(GenerateId(filePath), TrackName(name), kind, subType, year, month, points,
          Some(distance), Some(duration), Some(ElevationGain(points)), Some(speed), date, filePath)
  }

  /** A record whose speed is the guarded quotient of its own distance and duration
      (as every parsed record is) has speed 0 unless its duration is positive, and
      otherwise covers its distance in its duration, in km/h. */
  lemma RecordSpeed(t: Track)
    requires t.distance.Some? && t.duration.Some?
    requires t.avgSpeed == Some(AvgSpeed(t.distance.value, t.duration.value))
    ensures t.duration.value <= 0.0 ==> t.avgSpeed.value == 0.0
    ensures t.duration.value > 0.0 ==> t.avgSpeed.value * t.duration.value == 3.6 * t.distance.value
  {
  }

  /** A track read from the example path is dated July 2023, whatever the current year. */
  lemma ParsedExampleDate(name: Option<string>, date: Option<int>, points: seq<Point>,
                          kind: Category, subType: string, currentYear: int, dist: Metric)
    ensures var t := ParseGpxFile(name, date, points, Path, kind, subType, currentYear, dist);
            t.year == 2023 && t.month == 7
  {
    ExamplePathYear(currentYear);
    ExamplePathMonth();
  }

  lemma ExampleYearValue()
    ensures IsYearSegment("2023") && ValueOf("2023", 10) == 2023
  {
    SegmentValues();
  }

  lemma ExampleMonthValue()
    ensures !IsMonthSegment("2023") && IsMonthSegment("07") && ValueOf("07", 10) == 7
  {
    SegmentValues();
  }

  /** The example path is dated 2023. */
  lemma ExamplePathYear(currentYear: int)
    ensures PathYear(Path, currentYear) == 2023
  {
    SplitPath();
    ExampleYearValue();
    assert FirstMatch(Segments, IsYearSegment) == 0;
    PathYearFound(Path, currentYear, 0);
  }

  /** The example path is dated July. */
  lemma ExamplePathMonth()
    ensures PathMonth(Path) == 7
  {
    SplitPath();
    ExampleMonthValue();
    assert FirstMatch(Segments, IsMonthSegment) == 1 by {
      assert Segments[1..][0] == "07";
    }
    PathMonthFound(Path, 1);
  }
}

=== FILE: gpx_types.dfy ===
/** The records the pipeline passes around: points, tracks, filters and statistics. */
module GpxTypes {
  import opened Optional

  /** A track point. `time` is the instant in milliseconds since the epoch
      (what `Date.getTime()` returns); latitude and longitude are in degrees. */
  datatype Point = Point(lat: real, lon: real, ele: Option<real>, time: Option<int>)

  /** The activity type `'sport' | 'divers'`. */
  datatype Category = Sport | Divers

  /** A parsed track; the optional metrics are always present on parsed tracks
      but the record type allows them to be missing. */
  datatype Track = Track(
    id: string,
    name: string,
    kind: Category,
    subType: string,
    year: int,
    month: int,
    points: seq<Point>,
    distance: Option<real>,       // metres
    duration: Option<real>,       // seconds
    elevationGain: Option<real>,  // metres
    avgSpeed: Option<real>,       // km/h
    date: Option<int>,
    filePath: string)

  /** An inclusive `[min, max]` pair. */
  datatype Range = Range(lo: int, hi: int)

  datatype Filters = Filters(
    showSport: bool,
    showDivers: bool,
    sportTypes: seq<string>,
    diversTypes: seq<string>,
    yearRange: Option<Range>,
    monthRange: Option<Range>)

  /** The aggregate figures the store computes. */
  datatype Stats = Stats(totalDistance: real, totalTracks: nat, sportTracks: nat, diversTracks: nat)
}

=== FILE: js_number.dfy ===
/** The JavaScript number conversions the pipeline relies on: `parseInt`
    (ECMA-262, section 19.2.5), integer-to-string rendering, `Math.round`,
    `Math.floor` and the truncating `%`, over exact integers and reals. */
module JsNumber {
  import opened Optional
  import opened Text

  /** WhiteSpace and LineTerminator code points, which `parseInt` skips before the number. */
  predicate IsJsSpace(c: char) {
    || c == '\U{9}' || c == '\U{A}' || c == '\U{B}' || c == '\U{C}' || c == '\U{D}'
    || c == ' ' || c == '\U{A0}' || c == '\U{1680}' || ('\U{2000}' <= c <= '\U{200A}')
    || c == '\U{2028}' || c == '\U{2029}' || c == '\U{202F}' || c == '\U{205F}'
    || c == '\U{3000}' || c == '\U{FEFF}'
  }

  /** The string with its leading white space removed. */
  function TrimStart(s: string): (t: string)
    ensures |t| <= |s| && t == s[|s| - |t|..]
    ensures |t| > 0 ==> !IsJsSpace(t[0])
    ensures (forall i :: 0 <= i < |s| - |t| ==> IsJsSpace(s[i]))
  {
    if |s| > 0 && IsJsSpace(s[0]) then TrimStart(s[1..]) else s
  }

  /** The value of a character as a digit in any radix up to 36; 36 for a non-digit. */
  function DigitValue(c: char): (d: nat)
    ensures d <= 36
    ensures d < 10 <==> IsAsciiDigit(c)
  {
    if '0' <= c <= '9' then c as int - '0' as int
    else if 'a' <= c <= 'z' then c as int - 'a' as int + 10
    else if 'A' <= c <= 'Z' then c as int - 'A' as int + 10
    else 36
  }

  predicate IsRadixDigit(c: char, radix: nat) {
    DigitValue(c) < radix
  }

  /** The longest prefix of `s` made of digits of `radix`. */
  function LeadingDigits(s: string, radix: nat): (z: string)
    ensures |z| <= |s| && z == s[..|z|]
    ensures forall i :: 0 <= i < |z| ==> IsRadixDigit(z[i], radix)
    ensures |z| < |s| ==> !IsRadixDigit(s[|z|], radix)
  {
    if |s| > 0 && IsRadixDigit(s[0], radix) then [s[0]] + LeadingDigits(s[1..], radix) else ""
  }

  /** The value of a digit string in `radix`, most significant digit first. */
  function ValueOf(z: string, radix: nat): nat
    decreases |z|
  {
    if |z| == 0 then 0 else ValueOf(z[..|z| - 1], radix) * radix + DigitValue(z[|z| - 1])
  }

  /** `parseInt(s)` with no radix; None stands for NaN. Leading white space is
      skipped, one sign is honoured, and the number ends at the first non-digit. */
  function ParseInt(s: string): Option<int> {
    var t := TrimStart(s);
    if |t| > 0 && t[0] == '-' then Negate(ParseMagnitude(t[1..]))
    else if |t| > 0 && t[0] == '+' then ParseMagnitude(t[1..])
    else ParseMagnitude(t)
  }

  function Negate(n: Option<int>): (m: Option<int>)
    ensures m.None? <==> n.None?
    ensures m.Some? ==> m.value == -n.value
  {
    match n
    case Some(v) => Some(-v)
    case None => None
  }

  /** The unsigned part: hexadecimal after "0x" or "0X", decimal otherwise. */
  function ParseMagnitude(u: string): Option<int> {
    if |u| >= 2 && u[0] == '0' && (u[1] == 'x' || u[1] == 'X') then LeadingValue(u[2..], 16)
    else LeadingValue(u, 10)
  }

  /** The value of the digits `s` starts with; NaN when it starts with none. */
  function LeadingValue(s: string, radix: nat): Option<int> {
    var z := LeadingDigits(s, radix);
    if |z| == 0 then None else Some(ValueOf(z, radix))
  }

  /** `parseInt(s) || fallback`: NaN and (signed) zero are falsy. */
  function OrIfFalsy(n: Option<int>, fallback: int): (r: int)
    ensures r == fallback || (n == Some(r) && r != 0)
    ensures n.Some? && n.value != 0 ==> r == n.value
  {
    if n.Some? && n.value != 0 then n.value else fallback
  }

  function DigitChar(d: nat): (c: char)
    requires d < 10
    ensures IsAsciiDigit(c) && DigitValue(c) == d
  {
    ('0' as int + d) as char
  }

  /** A non-empty run of decimal digits. */
  predicate IsDigitString(s: string) {
    |s| >= 1 && forall i :: 0 <= i < |s| ==> IsAsciiDigit(s[i])
  }

  /** The decimal rendering of a natural number, without leading zeros. */
  function NatToDecimal(n: nat): (s: string)
    ensures IsDigitString(s)
    ensures |s| > 1 ==> s[0] != '0'
    ensures ValueOf(s, 10) == n
    decreases n
  {
    if n < 10 then [DigitChar(n)]
    else
      var s := NatToDecimal(n / 10) + [DigitChar(n % 10)];
      assert s[..|s| - 1] == NatToDecimal(n / 10);
      s
  }

  /** The string form of an integral JavaScript number (`${n}`), below 1e21 in magnitude. */
  function IntToDecimal(n: int): string {
    if n < 0 then "-" + NatToDecimal(-n) else NatToDecimal(n)
  }

  /** A string of decimal digits parses to its value. */
  lemma ParseIntOfDigits(s: string)
    requires IsDigitString(s)
    ensures ParseInt(s) == Some(ValueOf(s, 10))
  {
    UnsignedNumeral(s, "");
    assert s + "" == s;
  }

  /** The digits of `z` are the number at the start of `z + rest` when `rest` does not go on with a digit. */
  lemma {:induction false} LeadingDigitsOfPrefix(z: string, rest: string, radix: nat)
    requires forall i :: 0 <= i < |z| ==> IsRadixDigit(z[i], radix)
    requires |rest| == 0 || !IsRadixDigit(rest[0], radix)
    ensures LeadingDigits(z + rest, radix) == z
    decreases |z|
  {
    if |z| > 0 {
      LeadingDigitsOfPrefix(z[1..], rest, radix);
      assert (z + rest)[1..] == z[1..] + rest;
    } else {
      assert z + rest == rest;
    }
  }

  /** The rendering of an integer, followed by text that does not continue the number,
      parses back to the integer. */
  lemma ParseIntOfRendering(n: int, rest: string)
    requires |rest| == 0 || (!IsAsciiDigit(rest[0]) && rest[0] != 'x' && rest[0] != 'X')
    ensures ParseInt(IntToDecimal(n) + rest) == Some(n)
  {
    if n < 0 {
      NegativeRendering(n, rest);
    } else {
      NaturalRendering(n, rest);
    }
  }

  lemma NaturalRendering(n: nat, rest: string)
    requires |rest| == 0 || (!IsAsciiDigit(rest[0]) && rest[0] != 'x' && rest[0] != 'X')
    ensures ParseInt(NatToDecimal(n) + rest) == Some(n)
  {
    UnsignedNumeral(NatToDecimal(n), rest);
  }

  lemma NegativeRendering(n: int, rest: string)
    requires n < 0
    requires |rest| == 0 || (!IsAsciiDigit(rest[0]) && rest[0] != 'x' && rest[0] != 'X')
    ensures ParseInt(IntToDecimal(n) + rest) == Some(n)
  {
    var d := NatToDecimal(-n);
    MagnitudeOfNumeral(d, rest);
    assert IntToDecimal(n) + rest == "-" + (d + rest);
    NegatedMagnitude(IntToDecimal(n) + rest, d + rest, -n);
  }

  lemma UnsignedNumeral(d: string, rest: string)
    requires IsDigitString(d)
    requires |rest| == 0 || (!IsAsciiDigit(rest[0]) && rest[0] != 'x' && rest[0] != 'X')
    ensures ParseInt(d + rest) == Some(ValueOf(d, 10))
  {
    var s := d + rest;
    MagnitudeOfNumeral(d, rest);
    assert s[0] == d[0];
    NoSign(s);
  }

  lemma NegatedMagnitude(s: string, u: string, v: int)
    requires s == "-" + u && ParseMagnitude(u) == Some(v)
    ensures ParseInt(s) == Some(-v)
  {
    assert s[0] == '-' && s[1..] == u;
    MinusSign(s);
  }

  /** A leading minus sign negates the magnitude that follows it. */
  lemma MinusSign(s: string)
    requires |s| > 0 && s[0] == '-'
    ensures ParseInt(s) == Negate(ParseMagnitude(s[1..]))
  {
    assert TrimStart(s) == s;
  }

  /** Without leading space or sign, the whole text is the magnitude. */
  lemma NoSign(s: string)
    requires |s| > 0 && IsAsciiDigit(s[0])
    ensures ParseInt(s) == ParseMagnitude(s)
  {
    assert TrimStart(s) == s;
  }

  /** Decimal digits followed by a character that neither continues them nor makes a "0x" prefix. */
  lemma MagnitudeOfNumeral(d: string, rest: string)
    requires IsDigitString(d)
    requires |rest| == 0 || (!IsAsciiDigit(rest[0]) && rest[0] != 'x' && rest[0] != 'X')
    ensures ParseMagnitude(d + rest) == Some(ValueOf(d, 10))
  {
    var u := d + rest;
    assert u[0] == d[0];
    assert |u| >= 2 ==> u[1] == (if |d| >= 2 then d[1] else rest[0]);
    LeadingDigitsOfPrefix(d, rest, 10);
  }

  /** Rendering an integer and parsing it back gives the integer. */
  lemma IntToDecimalRoundTrip(n: int)
    ensures ParseInt(IntToDecimal(n)) == Some(n)
  {
    ParseIntOfRendering(n, "");
    assert IntToDecimal(n) + "" == IntToDecimal(n);
  }

  /** Bounds of `Math.floor(x / d)`: `x` lies in the `d`-wide slot it names. */
  lemma FloorDivBounds(x: real, d: real)
    requires d > 0.0
    ensures (x / d).Floor as real * d <= x < (x / d).Floor as real * d + d
  {
    var q := x / d;
    assert q * d == x;
    var f := q.Floor as real;
    Bracket(x, d, q, f, f + 1.0);
  }

  lemma TwoDigitValue(s: string)
    requires |s| == 2
    ensures ValueOf(s, 10) == 10 * DigitValue(s[0]) + DigitValue(s[1])
  {
    assert ValueOf(s[..1], 10) == DigitValue(s[0]) by {
      assert s[..1][..0] == [];
    }
  }

  lemma FourDigitValue(s: string)
    requires |s| == 4
    ensures ValueOf(s, 10) == 1000 * DigitValue(s[0]) + 100 * DigitValue(s[1]) + 10 * DigitValue(s[2]) + DigitValue(s[3])
  {
    assert s[..3][..2] == s[..2];
    TwoDigitValue(s[..2]);
  }

  /** A string whose first character is not white space, a sign or a digit parses to NaN. */
  lemma ParseIntNoDigits(s: string)
    requires |s| > 0 && !IsJsSpace(s[0]) && s[0] != '-' && s[0] != '+' && !IsAsciiDigit(s[0])
    ensures ParseInt(s) == None
  {
    assert TrimStart(s) == s;
  }

  /** `Math.round`: to the nearest integer, halves towards positive infinity. */
  function JsRound(x: real): (n: int)
    ensures n as real - 0.5 <= x < n as real + 0.5
  {
    (x + 0.5).Floor
  }

  /** Truncation towards zero. */
  function Trunc(x: real): (n: int)
    ensures x >= 0.0 ==> n as real <= x < n as real + 1.0
    ensures x < 0.0 ==> n as real - 1.0 < x <= n as real
  {
    if x >= 0.0 then x.Floor else -((-x).Floor)
  }

  /** JavaScript's `x % m` for a positive modulus: the remainder takes the sign of `x`. */
  function JsRem(x: real, m: real): (r: real)
    requires m > 0.0
    ensures x >= 0.0 ==> 0.0 <= r < m
    ensures x < 0.0 ==> -m < r <= 0.0
    ensures ((x - r) / m).Floor as real == (x - r) / m
  {
    RemainderBounds(x, m);
    var q := Trunc(x / m);
    assert (q as real * m) / m == q as real;
    x - q as real * m
  }

  lemma RemainderBounds(x: real, m: real)
    requires m > 0.0
    ensures x >= 0.0 ==> 0.0 <= x - Trunc(x / m) as real * m < m
    ensures x < 0.0 ==> -m < x - Trunc(x / m) as real * m <= 0.0
  {
    var q := x / m;
    assert q * m == x;
    var t := Trunc(q) as real;
    if x >= 0.0 {
      Bracket(x, m, q, t, t + 1.0);
    } else {
      Bracket(x, m, q, t - 1.0, t);
    }
  }

  /** A multiple of `m` between `lo` and `hi` times `m`. */
  lemma Bracket(x: real, m: real, q: real, lo: real, hi: real)
    requires m > 0.0 && q * m == x && lo <= q <= hi
    ensures lo * m <= x <= hi * m
    ensures lo < q ==> lo * m < x
    ensures q < hi ==> x < hi * m
  {
    ScaleMonotone(lo, q, m);
    ScaleMonotone(q, hi, m);
  }

  lemma ScaleMonotone(a: real, b: real, m: real)
    requires m > 0.0
    ensures a < b ==> a * m < b * m
    ensures a <= b ==> a * m <= b * m
  {
  }
}

=== FILE: optional.dfy ===
/** JavaScript's `undefined` for optional fields, as an explicit Option. */
module Optional {

  datatype Option<+T> = None | Some(value: T) {

    /** The wrapped value, or `default` when absent (the `x ?? default` idiom). */
    function GetOr(default: T): T {
      match this
      case Some(v) => v
      case None => default
    }
  }
}

=== FILE: text.dfy ===
/** Character and string helpers shared by the path, id and formatting code.
    Strings are sequences of Unicode scalar values. */
module Text {

  predicate IsAsciiDigit(c: char) {
    '0' <= c <= '9'
  }

  predicate IsAsciiLetter(c: char) {
    'a' <= c <= 'z' || 'A' <= c <= 'Z'
  }

  /** The class `[a-zA-Z0-9]` of a JavaScript regular expression. */
  predicate IsAsciiAlnum(c: char) {
    IsAsciiDigit(c) || IsAsciiLetter(c)
  }

  function LowerChar(c: char): (l: char)
    ensures 'A' <= c <= 'Z' ==> 'a' <= l <= 'z' && l as int == c as int + 32
    ensures !('A' <= c <= 'Z') ==> l == c
  {
    if 'A' <= c <= 'Z' then (c as int + 32) as char else c
  }

  /** `toLowerCase` on the ASCII letters. No other character lower-cases to '.',
      'g', 'p' or 'x', so this is exact for the ".gpx" suffix test. Other letters
      differ: the Kelvin sign U+212A lower-cases to 'k', for one. */
  function AsciiLower(s: string): (l: string)
    ensures |l| == |s|
    ensures forall i :: 0 <= i < |s| ==> l[i] == LowerChar(s[i])
  {
    seq(|s|, i requires 0 <= i < |s| => LowerChar(s[i]))
  }

  /** `s.endsWith(suffix)`. */
  predicate EndsWith(s: string, suffix: string) {
    |suffix| <= |s| && s[|s| - |suffix|..] == suffix
  }

  /** `s.split(sep)` for a one-character separator: the pieces between
      separators, in order; never empty ("" splits into [""]). */
  function Split(s: string, sep: char): (parts: seq<string>)
    ensures |parts| >= 1
    ensures forall i :: 0 <= i < |parts| ==> sep !in parts[i]
    decreases |s|
  {
    if |s| == 0 then [""]
    else
      var rest := Split(s[1..], sep);
      if s[0] == sep then [""] + rest
      else [[s[0]] + rest[0]] + rest[1..]
  }

  /** `parts.join(sep)`, the inverse of Split. */
  function Join(parts: seq<string>, sep: char): string
    requires |parts| >= 1
    decreases |parts|
  {
    if |parts| == 1 then parts[0] else parts[0] + [sep] + Join(parts[1..], sep)
  }

  /** Splitting and re-joining gives back the original string. */
  lemma {:induction false} JoinSplit(s: string, sep: char)
    ensures Join(Split(s, sep), sep) == s
    decreases |s|
  {
    if |s| > 0 {
      var rest := Split(s[1..], sep);
      JoinSplit(s[1..], sep);
      if s[0] == sep {
        assert Split(s, sep) == [""] + rest;
        assert ([""] + rest)[1..] == rest;
        assert s == [sep] + s[1..];
      } else {
        var parts := [[s[0]] + rest[0]] + rest[1..];
        assert Split(s, sep) == parts;
        if |rest| == 1 {
          assert s == [s[0]] + rest[0];
        } else {
          assert parts[1..] == rest[1..];
          assert Join(rest, sep) == rest[0] + [sep] + Join(rest[1..], sep);
          assert s == [s[0]] + s[1..];
        }
      }
    }
  }

  /** Joining separator-free pieces and splitting again gives back the pieces. */
  lemma {:induction false} SplitJoin(parts: seq<string>, sep: char)
    requires |parts| >= 1
    requires forall i :: 0 <= i < |parts| ==> sep !in parts[i]
    ensures Split(Join(parts, sep), sep) == parts
    decreases |parts|
  {
    if |parts| == 1 {
      SplitWithoutSeparator(parts[0], sep);
    } else {
      var rest := parts[1..];
      assert forall i :: 0 <= i < |rest| ==> rest[i] == parts[i + 1];
      SplitJoin(rest, sep);
      SplitAtFirstSeparator(parts[0], Join(rest, sep), sep);
      assert [parts[0]] + rest == parts;
    }
  }

  /** A string without the separator is a single piece. */
  lemma {:induction false} SplitWithoutSeparator(s: string, sep: char)
    requires sep !in s
    ensures Split(s, sep) == [s]
    decreases |s|
  {
    if |s| > 0 {
      assert sep !in s[1..] by { assert forall c :: c in s[1..] ==> c in s; }
      SplitWithoutSeparator(s[1..], sep);
      assert [s[0]] + s[1..] == s;
    }
  }

  /** The text before the first separator is the first piece; the rest splits on its own. */
  lemma {:induction false} SplitAtFirstSeparator(a: string, b: string, sep: char)
    requires sep !in a
    ensures Split(a + [sep] + b, sep) == [a] + Split(b, sep)
    decreases |a|
  {
    var s := a + [sep] + b;
    if |a| == 0 {
      assert s == [sep] + b;
      assert s[1..] == b;
    } else {
      assert sep !in a[1..] by { assert forall c :: c in a[1..] ==> c in a; }
      SplitAtFirstSeparator(a[1..], b, sep);
      assert s[0] == a[0] && s[0] != sep;
      assert s[1..] == a[1..] + [sep] + b;
      assert [a[0]] + a[1..] == a;
    }
  }
}

=== FILE: track_scan.dfy ===
/** The per-file step of the server's directory scan: a file's path relative
    to the data directory, in the `YYYY/MM/type/filename` layout, becomes the
    descriptor the track list reports. Paths use '/' as the separator. */
module TrackScan {
  import opened Optional
  import opened Text
  import opened JsNumber
  import opened GpxTypes
  import opened ExamplePath

  datatype Descriptor = Descriptor(
    path: string,
    year: int,
    month: int,
    kind: Category,
    subType: string,
    filename: string)

  /** What the scan does with one file entry. */
  datatype Classification =
    | NotListed                       // the name does not end in ".gpx"
    | Listed(descriptor: Descriptor)
    | Throws                          // fewer than four segments: `filename` is undefined

  /** `item.toLowerCase().endsWith('.gpx')`. */
  predicate IsGpxName(item: string) {
    EndsWith(AsciiLower(item), ".gpx")
  }

  /** `filename.split('_')[1] || 'autre'`. */
  function SubTypeOf(filename: string): string {
    var tokens := Split(filename, '_');
    if |tokens| >= 2 && tokens[1] != "" then tokens[1] else "autre"
  }

  /** `type === 'sport' ? 'sport' : 'divers'`. */
  function CategoryOf(folder: string): Category {
    if folder == "sport" then Sport else Divers
  }

  /** The classification of the file at `relativePath`; its last segment is the entry's name. */
  function Classify(relativePath: string, currentYear: int): Classification {
    var parts := Split(relativePath, '/');
    if !IsGpxName(parts[|parts| - 1]) then NotListed
    else if |parts| < 4 then Throws
    else Listed(Descriptor(
      relativePath,
      OrIfFalsy(ParseInt(parts[0]), currentYear),
      OrIfFalsy(ParseInt(parts[1]), 1),
      CategoryOf(parts[2]),
      SubTypeOf(parts[3]),
      parts[3]))
  }

  /** The loop over one directory's file entries: the descriptors of the listed
      entries, in order, up to the first entry that throws, which ends the loop. */
  function ScanFiles(relativePaths: seq<string>, currentYear: int): seq<Descriptor> {
    ScanWith(relativePaths, entry => Classify(entry, currentYear))
  }

  /** The same loop for any per-entry classification. */
  function ScanWith(entries: seq<string>, classify: string -> Classification): seq<Descriptor>
    decreases |entries|
  {
    if |entries| == 0 then []
    else Step(classify(entries[0]), ScanWith(entries[1..], classify))
  }

  /** One turn of the loop: skip, push, or abandon everything collected from here on. */
  function Step(c: Classification, later: seq<Descriptor>): seq<Descriptor> {
    match c
    case NotListed => later
    case Listed(d) => [d] + later
    case Throws => []
  }

  // ------------------------------------------------------------ the extension

  /** The name ends in '.', then g, p, x in either case. */
  lemma IsGpxNameIff(item: string)
    ensures IsGpxName(item) <==>
      && |item| >= 4
      && item[|item| - 4] == '.'
      && (item[|item| - 3] == 'g' || item[|item| - 3] == 'G')
      && (item[|item| - 2] == 'p' || item[|item| - 2] == 'P')
      && (item[|item| - 1] == 'x' || item[|item| - 1] == 'X')
  {
    var l := AsciiLower(item);
    if |item| >= 4 {
      var n := |item|;
      assert l[n - 4..] == [l[n - 4], l[n - 3], l[n - 2], l[n - 1]];
    }
  }

  lemma IsGpxNameExamples()
    ensures IsGpxName("X.GPX")
    ensures !IsGpxName("x.gpx.bak")
  {
    IsGpxNameIff("X.GPX");
    IsGpxNameIff("x.gpx.bak");
  }

  /** Exactly the non-".gpx" names are left out of the list. */
  lemma ClassifyNotListed(relativePath: string, currentYear: int)
    ensures var parts := Split(relativePath, '/');
            Classify(relativePath, currentYear) == NotListed <==> !IsGpxName(parts[|parts| - 1])
  {
  }

  /** A ".gpx" file fewer than four segments deep makes the scan throw. */
  lemma ClassifyThrows(relativePath: string, currentYear: int)
    ensures var parts := Split(relativePath, '/');
            Classify(relativePath, currentYear) == Throws <==> IsGpxName(parts[|parts| - 1]) && |parts| < 4
  {
  }

  // ----------------------------------------------------------- listed fields

  /** The descriptor keeps the path, takes the fourth segment as the file name and
      is 'sport' exactly when the third segment is "sport". */
  lemma ListedFields(relativePath: string, currentYear: int)
    requires Classify(relativePath, currentYear).Listed?
    ensures var parts := Split(relativePath, '/');
            var d := Classify(relativePath, currentYear).descriptor;
            && |parts| >= 4
            && d.path == relativePath
            && d.filename == parts[3]
            && (d.kind == Sport <==> parts[2] == "sport")
            && d.subType == SubTypeOf(d.filename)
  {
  }

  /** The first four segments, the file name among them, and whatever lies deeper
      make up the whole path again. */
  lemma ListedPathRejoins(relativePath: string, currentYear: int)
    requires Classify(relativePath, currentYear).Listed?
    ensures var parts := Split(relativePath, '/');
            var d := Classify(relativePath, currentYear).descriptor;
            Join([parts[0], parts[1], parts[2], d.filename] + parts[4..], '/') == relativePath
  {
    var parts := Split(relativePath, '/');
    ListedFields(relativePath, currentYear);
    JoinSplit(relativePath, '/');
    assert [parts[0], parts[1], parts[2], parts[3]] + parts[4..] == parts;
  }

  /** Empty, or starting with something that is neither white space, a sign nor a digit. */
  predicate StartsWithoutNumber(segment: string) {
    |segment| == 0 || (!IsJsSpace(segment[0]) && segment[0] != '-' && segment[0] != '+' && !IsAsciiDigit(segment[0]))
  }

  /** A segment that starts with decimal digits `parseInt` reads in base ten: it
      does not start with "0x" or "0X", the hexadecimal prefix. */
  predicate StartsWithDecimal(segment: string) {
    && |LeadingDigits(segment, 10)| >= 1
    && !(|segment| >= 2 && segment[0] == '0' && (segment[1] == 'x' || segment[1] == 'X'))
  }

  /** The number `parseInt` reads at the start of such a segment. */
  function LeadingNumber(segment: string): nat {
    ValueOf(LeadingDigits(segment, 10), 10)
  }

  /** `parseInt(segment) || fallback` on a segment that starts with decimal digits:
      the value of those digits, whatever follows them, unless that value is 0. */
  lemma LeadingDigitsSegment(segment: string, fallback: int)
    requires StartsWithDecimal(segment)
    ensures LeadingNumber(segment) != 0 ==> OrIfFalsy(ParseInt(segment), fallback) == LeadingNumber(segment)
    ensures LeadingNumber(segment) == 0 ==> OrIfFalsy(ParseInt(segment), fallback) == fallback
  {
    assert IsRadixDigit(segment[0], 10);
    NoSign(segment);
    assert ParseMagnitude(segment) == LeadingValue(segment, 10);
  }

  /** `parseInt(segment) || fallback` on a segment of plain digits: its value, unless that value is 0. */
  lemma DigitSegment(segment: string, fallback: int)
    requires IsDigitString(segment)
    ensures ValueOf(segment, 10) != 0 ==> OrIfFalsy(ParseInt(segment), fallback) == ValueOf(segment, 10)
    ensures ValueOf(segment, 10) == 0 ==> OrIfFalsy(ParseInt(segment), fallback) == fallback
  {
    ParseIntOfDigits(segment);
  }

  /** `parseInt(segment) || fallback` on a segment that does not start with a number: the fallback. */
  lemma NonNumericSegment(segment: string, fallback: int)
    requires StartsWithoutNumber(segment)
    ensures OrIfFalsy(ParseInt(segment), fallback) == fallback
  {
    if |segment| > 0 {
      ParseIntNoDigits(segment);
    }
  }

  /** Year and month are the numbers the first two segments start with when those are
      non-zero, and the current year and 1 when a segment does not start with a number. */
  lemma ListedYearMonth(relativePath: string, currentYear: int)
    requires Classify(relativePath, currentYear).Listed?
    ensures var parts := Split(relativePath, '/');
            var d := Classify(relativePath, currentYear).descriptor;
            && (StartsWithDecimal(parts[0]) && LeadingNumber(parts[0]) != 0 ==> d.year == LeadingNumber(parts[0]))
            && (StartsWithDecimal(parts[0]) && LeadingNumber(parts[0]) == 0 ==> d.year == currentYear)
            && (StartsWithoutNumber(parts[0]) ==> d.year == currentYear)
            && (StartsWithDecimal(parts[1]) && LeadingNumber(parts[1]) != 0 ==> d.month == LeadingNumber(parts[1]))
            && (StartsWithDecimal(parts[1]) && LeadingNumber(parts[1]) == 0 ==> d.month == 1)
            && (StartsWithoutNumber(parts[1]) ==> d.month == 1)
  {
    var parts := Split(relativePath, '/');
    if StartsWithDecimal(parts[0]) {
      LeadingDigitsSegment(parts[0], currentYear);
    }
    if StartsWithoutNumber(parts[0]) {
      NonNumericSegment(parts[0], currentYear);
    }
    if StartsWithDecimal(parts[1]) {
      LeadingDigitsSegment(parts[1], 1);
    }
    if StartsWithoutNumber(parts[1]) {
      NonNumericSegment(parts[1], 1);
    }
  }

  /** A year folder named "2023x" gives 2023: only a leading "0x" reads as hexadecimal. */
  lemma YearWithTrailingX()
    ensures OrIfFalsy(ParseInt("2023x"), 0) == 2023
  {
    FourDigitValue("2023");
    assert "2023x" == "2023" + "x";
    LeadingDigitsOfPrefix("2023", "x", 10);
    LeadingDigitsSegment("2023x", 0);
  }

  /** A month folder named "07-juillet" gives month 7. The name is written as its
      numeral and its suffix, so that the proof need not unfold `parseInt` over the
      literal character by character. */
  lemma MonthWithText()
    ensures OrIfFalsy(ParseInt("07" + "-juillet"), 1) == 7
  {
    TwoDigitValue("07");
    UnsignedNumeral("07", "-juillet");
  }

  /** "13" as a month segment is kept as 13. */
  lemma MonthNotClamped()
    ensures OrIfFalsy(ParseInt("13"), 1) == 13
  {
    TwoDigitValue("13");
    assert IsDigitString("13");
    DigitSegment("13", 1);
  }

  /** "00" as a month segment falls back to 1. */
  lemma MonthZeroFallsBack()
    ensures OrIfFalsy(ParseInt("00"), 1) == 1
  {
    TwoDigitValue("00");
    assert IsDigitString("00");
    DigitSegment("00", 1);
  }

  // ----------------------------------------------------------------- subtype

  /** The subtype is the text between the first and second underscores (or after
      the first one when there is no second), when that text is not empty. */
  lemma SubTypeOfTokens(tokens: seq<string>)
    requires |tokens| >= 1
    requires forall i :: 0 <= i < |tokens| ==> '_' !in tokens[i]
    ensures |tokens| >= 2 && tokens[1] != "" ==> SubTypeOf(Join(tokens, '_')) == tokens[1]
    ensures |tokens| == 1 || tokens[1] == "" ==> SubTypeOf(Join(tokens, '_')) == "autre"
  {
    SplitJoin(tokens, '_');
  }

  lemma JoinThree(a: string, b: string, c: string, sep: char)
    ensures Join([a, b, c], sep) == a + [sep] + b + [sep] + c
  {
    assert [a, b, c][1..] == [b, c];
    JoinTwo(b, c, sep);
  }

  lemma JoinTwo(a: string, b: string, sep: char)
    ensures Join([a, b], sep) == a + [sep] + b
  {
    assert [a, b][1..] == [b];
  }

  /** "2023-07-04_rando_summit.gpx" has subtype "rando". */
  lemma SubTypeMiddleToken()
    ensures SubTypeOf(FileName) == "rando"
  {
    var date, summit := "2023-07-04", "summit.gpx";
    assert '_' !in date && '_' !in "rando" && '_' !in summit;
    JoinThree(date, "rando", summit, '_');
    SubTypeOfTokens([date, "rando", summit]);
  }

  /** With one underscore the subtype runs to the end of the name, extension included.
      The name is written token by token, so that the proof splits it without
      unfolding the literal character by character. */
  lemma SubTypeLastToken()
    ensures SubTypeOf("2023-07-04" + "_" + "rando.gpx") == "rando.gpx"
  {
    assert '_' !in "2023-07-04" && '_' !in "rando.gpx";
    JoinTwo("2023-07-04", "rando.gpx", '_');
    SubTypeOfTokens(["2023-07-04", "rando.gpx"]);
  }

  /** Without an underscore the subtype is "autre". */
  lemma SubTypeNoUnderscore()
    ensures SubTypeOf("trace.gpx") == "autre"
  {
    assert '_' !in "trace.gpx";
    SubTypeOfTokens(["trace.gpx"]);
    assert Join(["trace.gpx"], '_') == "trace.gpx";
  }

  /** An empty second token, from two underscores in a row, gives "autre" (the name
      is written token by token, as above). */
  lemma SubTypeEmptyToken()
    ensures SubTypeOf("2023-07-04" + "_" + "" + "_" + "summit.gpx") == "autre"
  {
    assert '_' !in "2023-07-04" && '_' !in "summit.gpx";
    JoinThree("2023-07-04", "", "summit.gpx", '_');
    SubTypeOfTokens(["2023-07-04", "", "summit.gpx"]);
  }

  // ------------------------------------------------------------- worked example

  lemma ExampleYear(currentYear: int)
    ensures OrIfFalsy(ParseInt("2023"), currentYear) == 2023
  {
    SegmentValues();
    assert IsDigitString("2023");
    DigitSegment("2023", currentYear);
  }

  lemma ExampleMonth()
    ensures OrIfFalsy(ParseInt("07"), 1) == 7
  {
    SegmentValues();
    assert IsDigitString("07");
    DigitSegment("07", 1);
  }

  lemma ExampleFileName()
    ensures IsGpxName(FileName)
    ensures SubTypeOf(FileName) == "rando"
  {
    IsGpxNameIff(FileName);
    SubTypeMiddleToken();
  }

  /** The example path is listed as a July 2023 'sport' track of subtype "rando". */
  lemma ClassifyExample(currentYear: int)
    ensures Classify(Path, currentYear) == Listed(Descriptor(Path, 2023, 7, Sport, "rando", FileName))
  {
    SplitPath();
    ExampleYear(currentYear);
    ExampleMonth();
    ExampleFileName();
  }

  // ------------------------------------------------------------------ the loop

  /** Every descriptor the loop returns is the classification of one of its entries,
      and without a throwing entry every listed entry is returned. */
  lemma {:induction false} ScanWithContents(entries: seq<string>, classify: string -> Classification)
    ensures forall d :: d in ScanWith(entries, classify) ==>
              exists i :: 0 <= i < |entries| && classify(entries[i]) == Listed(d)
    ensures (forall i :: 0 <= i < |entries| ==> !classify(entries[i]).Throws?) ==>
              forall i :: 0 <= i < |entries| && classify(entries[i]).Listed? ==>
                classify(entries[i]).descriptor in ScanWith(entries, classify)
    decreases |entries|
  {
    if |entries| > 0 {
      var rest := entries[1..];
      ScanWithContents(rest, classify);
      assert forall i :: 0 < i < |entries| ==> entries[i] == rest[i - 1];
    }
  }

  /** A throwing entry ends the loop: what it returns is what the entries before it gave. */
  lemma {:induction false} ScanWithStopsAtThrow(before: seq<string>, bad: string, after: seq<string>, classify: string -> Classification)
    requires classify(bad) == Throws
    ensures ScanWith(before + [bad] + after, classify) == ScanWith(before, classify)
    decreases |before|
  {
    if |before| == 0 {
      assert before + [bad] + after == [bad] + after;
      assert ([bad] + after)[0] == bad;
    } else {
      var tail := before[1..];
      ScanWithStopsAtThrow(tail, bad, after, classify);
      var whole := before + [bad] + after;
      assert whole[0] == before[0];
      assert whole[1..] == tail + [bad] + after;
    }
  }

  /** An entry on its own: nothing when skipped or throwing, its descriptor when listed. */
  lemma ScanWithSingle(entry: string, classify: string -> Classification)
    ensures classify(entry).Listed? ==> ScanWith([entry], classify) == [classify(entry).descriptor]
    ensures !classify(entry).Listed? ==> ScanWith([entry], classify) == []
  {
    assert [entry][1..] == [];
  }

  /** Without a throwing entry in `a`, the loop returns what `a` gives followed by what
      `b` gives: one descriptor per listed entry, in entry order. */
  lemma {:induction false} ScanWithAppend(a: seq<string>, b: seq<string>, classify: string -> Classification)
    requires forall i :: 0 <= i < |a| ==> !classify(a[i]).Throws?
    ensures ScanWith(a + b, classify) == ScanWith(a, classify) + ScanWith(b, classify)
    decreases |a|
  {
    if |a| == 0 {
      assert a + b == b;
    } else {
      ScanWithAppend(a[1..], b, classify);
      assert (a + b)[0] == a[0];
      assert (a + b)[1..] == a[1..] + b;
    }
  }

  lemma ScanFilesContents(relativePaths: seq<string>, currentYear: int)
    ensures forall d :: d in ScanFiles(relativePaths, currentYear) ==>
              exists i :: 0 <= i < |relativePaths| && Classify(relativePaths[i], currentYear) == Listed(d)
    ensures (forall i :: 0 <= i < |relativePaths| ==> !Classify(relativePaths[i], currentYear).Throws?) ==>
              forall i :: 0 <= i < |relativePaths| && Classify(relativePaths[i], currentYear).Listed? ==>
                Classify(relativePaths[i], currentYear).descriptor in ScanFiles(relativePaths, currentYear)
  {
    ScanWithContents(relativePaths, entry => Classify(entry, currentYear));
  }

  lemma ScanFilesStopsAtThrow(before: seq<string>, bad: string, after: seq<string>, currentYear: int)
    requires Classify(bad, currentYear) == Throws
    ensures ScanFiles(before + [bad] + after, currentYear) == ScanFiles(before, currentYear)
  {
    ScanWithStopsAtThrow(before, bad, after, entry => Classify(entry, currentYear));
  }

  lemma ScanFilesAppend(a: seq<string>, b: seq<string>, currentYear: int)
    requires forall i :: 0 <= i < |a| ==> !Classify(a[i], currentYear).Throws?
    ensures ScanFiles(a + b, currentYear) == ScanFiles(a, currentYear) + ScanFiles(b, currentYear)
  {
    ScanWithAppend(a, b, entry => Classify(entry, currentYear));
  }

  lemma ScanFilesSingle(entry: string, currentYear: int)
    ensures Classify(entry, currentYear).Listed? ==>
              ScanFiles([entry], currentYear) == [Classify(entry, currentYear).descriptor]
    ensures !Classify(entry, currentYear).Listed? ==> ScanFiles([entry], currentYear) == []
  {
    ScanWithSingle(entry, entry => Classify(entry, currentYear));
  }
}

=== FILE: tracks_store.dfy ===
/** The track store: the loaded tracks and the active filters, the filtered
    view and the statistics derived from them, and the actions that change
    them, each action a function from the old state to the new one. */
module TracksStore {
  import opened Optional
  import opened GpxTypes

  datatype State = State(tracks: seq<Track>, filters: Filters)

  /** A `Partial<TrackFilters>`: None is a field left out. A range field that is
      supplied may itself be `undefined` (Some(None)), which removes the range. */
  datatype FilterPatch = FilterPatch(
    showSport: Option<bool>,
    showDivers: Option<bool>,
    sportTypes: Option<seq<string>>,
    diversTypes: Option<seq<string>>,
    yearRange: Option<Option<Range>>,
    monthRange: Option<Option<Range>>)

  const NoChange: FilterPatch := FilterPatch(None, None, None, None, None, None)

  const InitialFilters: Filters :=
    Filters(true, true, ["rando", "course", "velo"], ["voiture", "moto", "bateau"], None, None)

  const InitialState: State := State([], InitialFilters)

  // ------------------------------------------------------------ the predicate

  /** The callback of `filteredTracks`, test by test. */
  predicate Keep(f: Filters, t: Track) {
    if t.kind == Sport && !f.showSport then false
    else if t.kind == Divers && !f.showDivers then false
    else if f.yearRange.Some? && (t.year < f.yearRange.value.lo || t.year > f.yearRange.value.hi) then false
    else if f.monthRange.Some? && (t.month < f.monthRange.value.lo || t.month > f.monthRange.value.hi) then false
    else true
  }

  /** Whether tracks of a category are shown. */
  predicate Shown(f: Filters, c: Category) {
    match c
    case Sport => f.showSport
    case Divers => f.showDivers
  }

  /** No range, or a value within its inclusive bounds. */
  predicate InRange(r: Option<Range>, v: int) {
    match r
    case None => true
    case Some(Range(lo, hi)) => lo <= v <= hi
  }

  /** A track is kept exactly when its category is shown and its year and month
      are within the ranges that are set. */
  lemma KeepIff(f: Filters, t: Track)
    ensures Keep(f, t) <==> Shown(f, t.kind) && InRange(f.yearRange, t.year) && InRange(f.monthRange, t.month)
  {
  }

  // ---------------------------------------------------------- filtered view

  /** `ts.filter(t => Keep(f, t))`. */
  function Filter(f: Filters, ts: seq<Track>): (kept: seq<Track>)
    ensures |kept| <= |ts|
    decreases |ts|
  {
    if |ts| == 0 then []
    else Filter(f, ts[..|ts| - 1]) + (if Keep(f, ts[|ts| - 1]) then [ts[|ts| - 1]] else [])
  }

  /** A track is in the view exactly when it is stored and passes. */
  lemma {:induction false} FilterMembers(f: Filters, ts: seq<Track>)
    ensures forall t :: t in Filter(f, ts) <==> t in ts && Keep(f, t)
    decreases |ts|
  {
    if |ts| > 0 {
      var front := ts[..|ts| - 1];
      FilterMembers(f, front);
      assert ts == front + [ts[|ts| - 1]];
    }
  }

  /** The indices of the tracks that pass, in increasing order. */
  function KeptIndices(f: Filters, ts: seq<Track>): (idx: seq<nat>)
    ensures forall k :: 0 <= k < |idx| ==> idx[k] < |ts| && Keep(f, ts[idx[k]])
    ensures forall k, l :: 0 <= k < l < |idx| ==> idx[k] < idx[l]
    ensures forall i :: 0 <= i < |ts| && Keep(f, ts[i]) ==> i in idx
    decreases |ts|
  {
    if |ts| == 0 then []
    else
      var front := ts[..|ts| - 1];
      assert forall i :: 0 <= i < |front| ==> front[i] == ts[i];
      KeptIndices(f, front) + (if Keep(f, ts[|ts| - 1]) then [|ts| - 1] else [])
  }

  function FilteredTracks(s: State): seq<Track> {
    Filter(s.filters, s.tracks)
  }

  /** The view is the tracks at the kept indices, in their original order: an
      order-preserving subsequence holding every track that passes. */
  lemma {:induction false} FilterIsSubsequence(f: Filters, ts: seq<Track>)
    ensures var idx := KeptIndices(f, ts);
            && |Filter(f, ts)| == |idx|
            && forall k :: 0 <= k < |idx| ==> Filter(f, ts)[k] == ts[idx[k]]
    decreases |ts|
  {
    if |ts| > 0 {
      var front := ts[..|ts| - 1];
      var last := ts[|ts| - 1];
      FilterIsSubsequence(f, front);
      var kept, idx := Filter(f, front), KeptIndices(f, front);
      assert forall k :: 0 <= k < |idx| ==> kept[k] == ts[idx[k]];
      if Keep(f, last) {
        assert Filter(f, ts) == kept + [last];
        assert KeptIndices(f, ts) == idx + [|ts| - 1];
      } else {
        assert Filter(f, ts) == kept;
        assert KeptIndices(f, ts) == idx;
      }
    }
  }

  /** Filtering distributes over concatenation. */
  lemma {:induction false} FilterAppend(f: Filters, a: seq<Track>, b: seq<Track>)
    ensures Filter(f, a + b) == Filter(f, a) + Filter(f, b)
    decreases |b|
  {
    if |b| > 0 {
      var b' := b[..|b| - 1];
      FilterAppend(f, a, b');
      assert (a + b)[..|a + b| - 1] == a + b';
      assert (a + b)[|a + b| - 1] == b[|b| - 1];
    } else {
      assert a + b == a;
    }
  }

  /** Every kept track occurs in the view as often as in the store; the others not at all. */
  lemma {:induction false} FilterMultiplicity(f: Filters, ts: seq<Track>, t: Track)
    ensures multiset(Filter(f, ts))[t] == if Keep(f, t) then multiset(ts)[t] else 0
    decreases |ts|
  {
    if |ts| > 0 {
      var front := ts[..|ts| - 1];
      FilterMultiplicity(f, front, t);
      assert ts == front + [ts[|ts| - 1]];
    }
  }

  /** Under the initial filters every track passes. */
  lemma {:induction false} InitialFiltersKeepAll(ts: seq<Track>)
    ensures Filter(InitialFilters, ts) == ts
    decreases |ts|
  {
    if |ts| > 0 {
      InitialFiltersKeepAll(ts[..|ts| - 1]);
      assert ts[..|ts| - 1] + [ts[|ts| - 1]] == ts;
    }
  }

  /** The subtype lists never affect the view. */
  lemma {:induction false} TypeListsIgnored(f: Filters, sportTypes: seq<string>, diversTypes: seq<string>, ts: seq<Track>)
    ensures Filter(f.(sportTypes := sportTypes, diversTypes := diversTypes), ts) == Filter(f, ts)
    decreases |ts|
  {
    if |ts| > 0 {
      TypeListsIgnored(f, sportTypes, diversTypes, ts[..|ts| - 1]);
    }
  }

  /** A range whose minimum exceeds its maximum empties the view. */
  lemma InvertedRangeKeepsNothing(f: Filters, ts: seq<Track>)
    requires || (f.yearRange.Some? && f.yearRange.value.lo > f.yearRange.value.hi)
             || (f.monthRange.Some? && f.monthRange.value.lo > f.monthRange.value.hi)
    ensures Filter(f, ts) == []
  {
  }

  /** With sport hidden, divers shown and no ranges, the view is exactly the divers tracks. */
  lemma HidingSport(f: Filters, ts: seq<Track>)
    requires !f.showSport && f.showDivers && f.yearRange.None? && f.monthRange.None?
    ensures forall t :: t in Filter(f, ts) <==> t in ts && t.kind == Divers
  {
  }

  // ------------------------------------------------------------------- stats

  /** `t.distance || 0`. */
  function DistanceOf(t: Track): real {
    t.distance.GetOr(0.0)
  }

  function SumDistance(ts: seq<Track>): real
    decreases |ts|
  {
    if |ts| == 0 then 0.0 else SumDistance(ts[..|ts| - 1]) + DistanceOf(ts[|ts| - 1])
  }

  function CountKind(ts: seq<Track>, c: Category): (n: nat)
    ensures n <= |ts|
    decreases |ts|
  {
    if |ts| == 0 then 0 else CountKind(ts[..|ts| - 1], c) + (if ts[|ts| - 1].kind == c then 1 else 0)
  }

  lemma {:induction false} CountsPartition(ts: seq<Track>)
    ensures CountKind(ts, Sport) + CountKind(ts, Divers) == |ts|
    decreases |ts|
  {
    if |ts| > 0 {
      CountsPartition(ts[..|ts| - 1]);
    }
  }

  /** `stats`, computed from the filtered view only. */
  function ComputeStats(s: State): (st: Stats)
    ensures st.totalTracks == |FilteredTracks(s)|
    ensures st.sportTracks + st.diversTracks == st.totalTracks
  {
    var view := FilteredTracks(s);
    CountsPartition(view);
    Stats(SumDistance(view), |view|, CountKind(view, Sport), CountKind(view, Divers))
  }

  /** The distance of every stored track, counted only when the track passes. */
  function MaskedDistance(f: Filters, ts: seq<Track>): real
    decreases |ts|
  {
    if |ts| == 0 then 0.0
    else MaskedDistance(f, ts[..|ts| - 1]) + (if Keep(f, ts[|ts| - 1]) then DistanceOf(ts[|ts| - 1]) else 0.0)
  }

  lemma {:induction false} SumOfFilterIsMasked(f: Filters, ts: seq<Track>)
    ensures SumDistance(Filter(f, ts)) == MaskedDistance(f, ts)
    decreases |ts|
  {
    if |ts| > 0 {
      var front := ts[..|ts| - 1];
      var last := ts[|ts| - 1];
      SumOfFilterIsMasked(f, front);
      if Keep(f, last) {
        var kept := Filter(f, front) + [last];
        assert kept[..|kept| - 1] == Filter(f, front);
      } else {
        assert Filter(f, ts) == Filter(f, front);
      }
    }
  }

  /** The total distance adds up exactly the tracks that pass, a missing distance as 0. */
  lemma TotalDistanceOfKeptTracks(s: State)
    ensures ComputeStats(s).totalDistance == MaskedDistance(s.filters, s.tracks)
  {
    SumOfFilterIsMasked(s.filters, s.tracks);
  }

  lemma {:induction false} CountOfHiddenKind(f: Filters, ts: seq<Track>, c: Category)
    requires !Shown(f, c)
    ensures CountKind(Filter(f, ts), c) == 0
    decreases |ts|
  {
    if |ts| > 0 {
      var front := ts[..|ts| - 1];
      CountOfHiddenKind(f, front, c);
      if Keep(f, ts[|ts| - 1]) {
        var kept := Filter(f, front) + [ts[|ts| - 1]];
        assert Filter(f, ts) == kept;
        assert kept[..|kept| - 1] == Filter(f, front);
        assert kept[|kept| - 1].kind != c;
        assert CountKind(kept, c) == CountKind(Filter(f, front), c);
      } else {
        assert Filter(f, ts) == Filter(f, front);
      }
    }
  }

  lemma {:induction false} CountOfShownKind(f: Filters, ts: seq<Track>, c: Category)
    requires Shown(f, c) && f.yearRange.None? && f.monthRange.None?
    ensures CountKind(Filter(f, ts), c) == CountKind(ts, c)
    decreases |ts|
  {
    if |ts| > 0 {
      var front := ts[..|ts| - 1];
      var last := ts[|ts| - 1];
      CountOfShownKind(f, front, c);
      if Keep(f, last) {
        var kept := Filter(f, front) + [last];
        assert Filter(f, ts) == kept;
        assert kept[..|kept| - 1] == Filter(f, front);
      } else {
        assert Filter(f, ts) == Filter(f, front);
        assert last.kind != c;
      }
    }
  }

  /** With no ranges set, a shown category counts every stored track of that category. */
  lemma ShownCategoryCountsAll(s: State)
    requires s.filters.yearRange.None? && s.filters.monthRange.None?
    ensures s.filters.showSport ==> ComputeStats(s).sportTracks == CountKind(s.tracks, Sport)
    ensures s.filters.showDivers ==> ComputeStats(s).diversTracks == CountKind(s.tracks, Divers)
  {
    if s.filters.showSport {
      CountOfShownKind(s.filters, s.tracks, Sport);
    }
    if s.filters.showDivers {
      CountOfShownKind(s.filters, s.tracks, Divers);
    }
  }

  /** A hidden category counts no tracks. */
  lemma HiddenCategoryCountsZero(s: State)
    ensures !s.filters.showSport ==> ComputeStats(s).sportTracks == 0
    ensures !s.filters.showDivers ==> ComputeStats(s).diversTracks == 0
  {
    if !s.filters.showSport {
      CountOfHiddenKind(s.filters, s.tracks, Sport);
    }
    if !s.filters.showDivers {
      CountOfHiddenKind(s.filters, s.tracks, Divers);
    }
  }

  // ----------------------------------------------------------------- actions

  function AddTrack(s: State, t: Track): State {
    s.(tracks := s.tracks + [t])
  }

  function AddTracks(s: State, ts: seq<Track>): State {
    s.(tracks := s.tracks + ts)
  }

  function ClearTracks(s: State): State {
    s.(tracks := [])
  }

  /** `{ ...filters, ...patch }`: supplied fields replace, the others stay. */
  function MergeFilters(f: Filters, p: FilterPatch): Filters {
    Filters(
      p.showSport.GetOr(f.showSport),
      p.showDivers.GetOr(f.showDivers),
      p.sportTypes.GetOr(f.sportTypes),
      p.diversTypes.GetOr(f.diversTypes),
      p.yearRange.GetOr(f.yearRange),
      p.monthRange.GetOr(f.monthRange))
  }

  function UpdateFilters(s: State, p: FilterPatch): State {
    s.(filters := MergeFilters(s.filters, p))
  }

  function ToggleSport(s: State): State {
    s.(filters := s.filters.(showSport := !s.filters.showSport))
  }

  function ToggleDivers(s: State): State {
    s.(filters := s.filters.(showDivers := !s.filters.showDivers))
  }

  /** `addTracks(ts)` is `addTrack` applied to each track in turn. */
  ghost function AddEach(s: State, ts: seq<Track>): State
    decreases |ts|
  {
    if |ts| == 0 then s else AddEach(AddTrack(s, ts[0]), ts[1..])
  }

  lemma {:induction false} AddTracksIsAddTrackEach(s: State, ts: seq<Track>)
    ensures AddTracks(s, ts) == AddEach(s, ts)
    decreases |ts|
  {
    if |ts| > 0 {
      AddTracksIsAddTrackEach(AddTrack(s, ts[0]), ts[1..]);
      assert s.tracks + [ts[0]] + ts[1..] == s.tracks + ts;
    } else {
      assert s.tracks + ts == s.tracks;
    }
  }

  /** Adding appends at the end, keeps duplicates and leaves the filters alone. */
  lemma AddTrackAppends(s: State, t: Track)
    ensures AddTrack(s, t).filters == s.filters
    ensures |AddTrack(s, t).tracks| == |s.tracks| + 1
    ensures AddTrack(s, t).tracks[..|s.tracks|] == s.tracks && AddTrack(s, t).tracks[|s.tracks|] == t
    ensures multiset(AddTrack(s, t).tracks)[t] == multiset(s.tracks)[t] + 1
  {
    assert AddTrack(s, t).tracks[..|s.tracks|] == s.tracks;
  }

  /** Adding several appends them after the old tracks, in their order, keeping
      duplicates, and leaves the filters alone. */
  lemma AddTracksAppends(s: State, ts: seq<Track>)
    ensures AddTracks(s, ts).filters == s.filters
    ensures |AddTracks(s, ts).tracks| == |s.tracks| + |ts|
    ensures AddTracks(s, ts).tracks[..|s.tracks|] == s.tracks
    ensures AddTracks(s, ts).tracks[|s.tracks|..] == ts
    ensures multiset(AddTracks(s, ts).tracks) == multiset(s.tracks) + multiset(ts)
  {
    var all := AddTracks(s, ts).tracks;
    assert all[..|s.tracks|] == s.tracks;
    assert all[|s.tracks|..] == ts;
  }

  /** The view after adding tracks is the old view followed by the new tracks that pass. */
  lemma AddTracksView(s: State, ts: seq<Track>)
    ensures FilteredTracks(AddTracks(s, ts)) == FilteredTracks(s) + Filter(s.filters, ts)
    ensures ComputeStats(AddTracks(s, ts)).totalTracks == ComputeStats(s).totalTracks + |Filter(s.filters, ts)|
  {
    FilterAppend(s.filters, s.tracks, ts);
  }

  /** Loading tracks into the fresh store shows all of them. */
  lemma LoadIntoInitialState(ts: seq<Track>)
    ensures FilteredTracks(AddTracks(InitialState, ts)) == ts
    ensures ComputeStats(AddTracks(InitialState, ts)).totalTracks == |ts|
  {
    AddTracksView(InitialState, ts);
    InitialFiltersKeepAll(ts);
  }

  /** Clearing leaves an empty store, zero statistics and the same filters. */
  lemma ClearTracksEmpties(s: State)
    ensures ClearTracks(s).tracks == [] && ClearTracks(s).filters == s.filters
    ensures ComputeStats(ClearTracks(s)) == Stats(0.0, 0, 0, 0)
  {
  }

  /** Each field of the merged filters is the supplied value, or the old one when left out. */
  lemma MergeFieldwise(f: Filters, p: FilterPatch)
    ensures var g := MergeFilters(f, p);
            && (if p.showSport.Some? then g.showSport == p.showSport.value else g.showSport == f.showSport)
            && (if p.showDivers.Some? then g.showDivers == p.showDivers.value else g.showDivers == f.showDivers)
            && (if p.sportTypes.Some? then g.sportTypes == p.sportTypes.value else g.sportTypes == f.sportTypes)
            && (if p.diversTypes.Some? then g.diversTypes == p.diversTypes.value else g.diversTypes == f.diversTypes)
            && (if p.yearRange.Some? then g.yearRange == p.yearRange.value else g.yearRange == f.yearRange)
            && (if p.monthRange.Some? then g.monthRange == p.monthRange.value else g.monthRange == f.monthRange)
  {
  }

  /** An empty patch changes nothing, and applying a patch twice is applying it once. */
  lemma MergeLaws(f: Filters, p: FilterPatch)
    ensures MergeFilters(f, NoChange) == f
    ensures MergeFilters(MergeFilters(f, p), p) == MergeFilters(f, p)
  {
  }

  /** Updating the filters leaves the tracks alone. */
  lemma UpdateFiltersKeepsTracks(s: State, p: FilterPatch)
    ensures UpdateFilters(s, p).tracks == s.tracks
  {
  }

  /** A toggle is the update that supplies the negated flag, and toggling twice restores the state. */
  lemma TogglesAreInvolutions(s: State)
    ensures ToggleSport(s) == UpdateFilters(s, NoChange.(showSport := Some(!s.filters.showSport)))
    ensures ToggleDivers(s) == UpdateFilters(s, NoChange.(showDivers := Some(!s.filters.showDivers)))
    ensures ToggleSport(ToggleSport(s)) == s
    ensures ToggleDivers(ToggleDivers(s)) == s
    ensures ToggleSport(s).filters.showSport != s.filters.showSport
    ensures ToggleDivers(s).filters.showDivers != s.filters.showDivers
  {
  }
}
